=== FILE: README.md ===
# Product search with debounce, and a toast list, in Dafny

This project models the logic of two React demo components and proves
properties of the model.

**Product search.** A search box filters a fixed catalogue of nine products
through a mock search API that pages results three at a time. The query is
debounced (300 ms) before it reaches the API. Results accumulate as the user
clicks "load more" or scrolls near the bottom. The model covers:

- the catalogue and `searchProducts`, without its 800 ms latency and its
  random failure;
- `useDebounce`, as an event machine over inputs, clock ticks and timer
  firings;
- the component's seven state cells, taken together as one immutable
  `SearchState`, and each callback as one transition on it: beginning and
  settling a fetch, load-more, scroll, and the effect that reacts to a new
  debounced query;
- the conditions under which the page shows each of its parts;
- the whole component, with the debouncer feeding the query effect and
  the requests whose response has not yet arrived. Each response is an event
  of its own, `Settle(index, failed)`, that settles `pending[index]`. The
  mock API answers every call after the same 800 ms (`:33`, `:51`), so its
  responses arrive in request order and only `Settle(0, _)` occurs with it.
  The model admits any order, so that it also covers a search call whose
  latency varies.

A keystroke is modelled as a change of the input's value. React re-renders
on every `setQuery` but runs the debounce effect (`:70-73`) only when the
value differs from the previous render's, so a keystroke that leaves the
value unchanged neither restarts nor clears the timer. The burst lemmas
assume each keystroke changes the value.

**Toast list.** A click appends a notification. It is hidden 3000 ms later
and removed 300 ms after that. Both steps find their entry by id. The model
covers the three list operations and their laws.

Modules:

- `Options` and `Seqs` (`seqs.dfy`) hold `Option`, a filter with its laws,
  and sequence helpers.
- `Text` (`text.dfy`) models `toLowerCase` (ASCII), `includes` and `trim`.
- `Catalogue` (`catalogue.dfy`) holds `mockProducts`, `searchProducts` and
  JavaScript's `Array.prototype.slice`.
- `Search` (`search.dfy`) holds the state, the transitions and the view
  flags. It also holds the corrected transitions and the consistency they
  keep.
- `Debounce` (`debounce.dfy`) models the debounce hook.
- `Component` (`component.dfy`) combines the search state and the debouncer.
- `Findings` (`findings.dfy`) holds the traces that exhibit the two findings
  below, and their corrected counterparts.
- `Toast` (`toast.dfy`) models the notification list.

The outcome of a search call is an input to the model:
`Search.Outcome(catalogue, req, failed)`. The boolean `failed` stands for the
mock API's `Math.random() < 0.1`. The catalogue is a parameter so that the
lemmas hold for any catalogue. The component's own catalogue is
`Catalogue.MockProducts`, and the concrete lemmas use it. Notification ids
(`Date.now()` in the source) are parameters too.

Three behaviours of the code are worth spelling out:

- **A failed reset fetch leaves the list empty.** The list is cleared when
  a reset fetch begins (`DebounceSearch.tsx:98-100`), before the call can
  fail, and a failure (`:109-110`) does not restore it.
- **A blank debounced query clears only three cells.** It clears
  `products`, `hasMore` and `total` (`:136-139`). `isLoading` and `error`
  keep their values.
- **The error banner follows JavaScript truthiness.** It shows when the
  error is set and non-empty (`:190`), so an empty message would not show.

Two further behaviours of the code are modelled as written:

- Load-more fetches for the raw `query`, not the debounced one (`:120`).
- A reset fetch never sets `page` back to 1 (`:141`); see Findings.

## Model

All source paths are in the repository; `DebounceSearch.tsx` is `src/components/debounce-search/DebounceSearch.tsx` and `Toast.tsx` is `src/components/toast/Toast.tsx`.

| member | source | states |
|---|---|---|
| Text.Lower | src/components/debounce-search/DebounceSearch.tsx:40 | lower-casing keeps the length, leaves no upper-case letter, turns each upper-case letter into its lower-case form and leaves every other character as it is |
| Text.LowerIdempotent | src/components/debounce-search/DebounceSearch.tsx:40 | lower-casing twice is lower-casing once |
| Text.Includes | src/components/debounce-search/DebounceSearch.tsx:40 | `includes` holds exactly when the query occurs at some index of the name (the empty query occurs everywhere) |
| Text.TrimStart | src/components/debounce-search/DebounceSearch.tsx:136 | the result is a suffix without leading whitespace, and every character dropped is ECMAScript whitespace |
| Text.TrimEnd | src/components/debounce-search/DebounceSearch.tsx:136 | the result is a prefix without trailing whitespace, and every character dropped is whitespace |
| Text.TrimShape | src/components/debounce-search/DebounceSearch.tsx:136 | `trim` returns the slice of its input between a leading and a trailing run of whitespace, and the slice neither starts nor ends with whitespace |
| Text.BlankIffAllWhitespace | src/components/debounce-search/DebounceSearch.tsx:136 | `s.trim() === ""` (the effect at :136, and negated in the result count at :163 and the no-results message at :185) holds exactly when every character of `s` is whitespace |
| Seqs.Filter | src/components/debounce-search/DebounceSearch.tsx:39-41 | the filter keeps exactly the elements satisfying the test, never more than the input |
| Seqs.FilterConcat | src/components/debounce-search/DebounceSearch.tsx:39-41 | filtering commutes with concatenation, so kept elements stay in input order |
| Seqs.FilterKeepsOrder | src/components/debounce-search/DebounceSearch.tsx:39-41 | filtering a list with strictly increasing keys keeps the keys strictly increasing |
| Catalogue.CatalogueSortedById | src/components/debounce-search/DebounceSearch.tsx:18-28 | the mock catalogue lists its products by strictly increasing id |
| Catalogue.JsSlice | src/components/debounce-search/DebounceSearch.tsx:44 | `slice(start, end)` with non-negative bounds is the clamped sub-range, and empty when `end <= start` |
| Catalogue.SearchIn | src/components/debounce-search/DebounceSearch.tsx:39-50 | `total` is the number of matches whatever the page; `hasMore` iff `page*3 < total`; a page holds at most 3 matching catalogue products, equals `results[(page-1)*3 .. min(page*3, total)]`, and is empty past the end |
| Catalogue.MatchesInCatalogueOrder | src/components/debounce-search/DebounceSearch.tsx:39-41 | the results come in catalogue (id) order, and a catalogue product is a result exactly when its lower-cased name contains the lower-cased query |
| Catalogue.EveryMatchOnSomePage | src/components/debounce-search/DebounceSearch.tsx:39-44 | every matching catalogue product is returned on some page |
| Catalogue.AccumulatedIsPrefix | src/components/debounce-search/DebounceSearch.tsx:43-44 | pages 1..k concatenated in order are exactly the first `min(3k, total)` matches |
| Catalogue.IphoneScenario | src/components/debounce-search/DebounceSearch.tsx:18-50 | searching "iphone" gives the three iPhones (ids 1, 2, 3), total 3, no more pages |
| Search.Outcome | src/components/debounce-search/DebounceSearch.tsx:31-53 | a search call fails exactly when the random failure strikes, with the fixed message; otherwise it returns the catalogue search for the request's query and page: the match count, at most one page and `hasMore` |
| Search.SetQuery | src/components/debounce-search/DebounceSearch.tsx:159 | typing changes the raw query and nothing else |
| Search.BeginFetch | src/components/debounce-search/DebounceSearch.tsx:96-102 | beginning a fetch raises the loading flag and clears the error; a reset fetch empties the list, an append fetch keeps it; nothing else changes |
| Search.SettleFetch | src/components/debounce-search/DebounceSearch.tsx:104-113 | loading always ends and query and page stay; success replaces (reset) or extends (append) the list and takes `hasMore` and `total` from the result; failure records the message and changes nothing else |
| Search.FetchRoundTrip | src/components/debounce-search/DebounceSearch.tsx:96-113 | begin then settle: a failure leaves the list, `hasMore` and `total` as the begin step left them; a reset success shows exactly the page; an append success keeps the old list as a prefix and adds the page after it |
| Search.LoadMore | src/components/debounce-search/DebounceSearch.tsx:116-122 | load-more does nothing iff a fetch is running or there is nothing more; otherwise the page grows by exactly one and an append fetch of that page starts, for the raw query |
| Search.Scroll | src/components/debounce-search/DebounceSearch.tsx:124-133 | a scroll near the bottom acts as load-more, any other scroll does nothing |
| Search.QueryChanged | src/components/debounce-search/DebounceSearch.tsx:135-143 | a blank debounced query clears list, `hasMore` and `total` and starts no fetch; any other starts a reset fetch of page 1 for it, with the page cell left as it was |
| Search.Complete | src/components/debounce-search/DebounceSearch.tsx:104-113 | settling the fetch a step started ends loading and keeps query and page; a success replaces (reset) or extends (append) the list with the searched page and takes `hasMore` and `total` from the search, keeping the error; a failure keeps the list, `hasMore` and `total` and records the message; a step without a fetch is left as it is |
| Search.PageStaysPositive | src/components/debounce-search/DebounceSearch.tsx:88 | only load-more changes the page, and only upwards |
| Search.Render | src/components/debounce-search/DebounceSearch.tsx:163-213 | each part shows under exactly its condition: the top indicator iff loading on page 1, the bottom one iff loading on a later page, the load-more button iff there is more and nothing loads, the no-results message iff the query is not blank, nothing loads, the list is empty and no error shows, the list iff there are products, the banner iff the error is truthy, the count iff the query is not blank and `total > 0`; hence the two indicators never show together and the no-results message excludes list, banner and indicators |
| Search.QueryChangedFixed | src/components/debounce-search/DebounceSearch.tsx:135-143 | corrected query effect: as the original, except that a non-blank query also sets the page to 1 |
| Search.SettleFetchFixed | src/components/debounce-search/DebounceSearch.tsx:104-113 | corrected settle step: as the original, except that a failed append fetch gives back the page load-more advanced to |
| Search.FreshQueryConsistent | src/components/debounce-search/DebounceSearch.tsx:135-143 | with the corrected effect, a successful search of a non-blank query leaves the state consistent on page 1 |
| Search.LoadMoreConsistent | src/components/debounce-search/DebounceSearch.tsx:116-122 | with the corrected settle step, a load-more from a consistent state keeps it consistent: success adds exactly the next page, failure changes only the error |
| Search.NextPageExtends | src/components/debounce-search/DebounceSearch.tsx:43-44 | the first n pages followed by page n+1 are the first n+1 pages |
| Search.ExhaustedIsQuiet | src/components/debounce-search/DebounceSearch.tsx:116-133 | once every result is listed, load-more and scrolling do nothing |
| Debounce.Mount | src/components/debounce-search/DebounceSearch.tsx:68-73 | on mount the debounced value is the initial value and a timer for it is pending, started now |
| Debounce.Step | src/components/debounce-search/DebounceSearch.tsx:67-76 | events keep the debouncer valid; a changed input clears the pending timer and starts a new one for the new value now, an unchanged one does nothing; a tick only moves the clock; a due timer publishes its value, is gone and changes nothing else; a value is published only by a due timer, only if it differs from the current debounced value, and it is the latest input |
| Debounce.BurstPublishesNothing | src/components/debounce-search/DebounceSearch.tsx:70-73 | while a timer is pending and less than the delay passes, counted from when that timer started, nothing is published, however the input changes |
| Debounce.NewInputRestartsDelay | src/components/debounce-search/DebounceSearch.tsx:70-73 | a changed input restarts the delay: nothing is published until the delay has passed since that input, whatever happens to the input meanwhile |
| Debounce.BurstQuiet | src/components/debounce-search/DebounceSearch.tsx:70-73 | a burst of changing values with pauses shorter than the delay publishes nothing and leaves the last value as the pending input |
| Debounce.LastInputWins | src/components/debounce-search/DebounceSearch.tsx:67-76 | type a burst of changing values with pauses shorter than the delay, then wait the delay and let the timer run: the debounced value is the last value typed, published once iff it differs from the previous debounced value, and nothing else is published |
| Component.Mount | src/components/debounce-search/DebounceSearch.tsx:85-94 | on mount the search state is the initial one, the query and the debounced value are empty, nothing is outstanding and the catalogue is the mock one |
| Component.Handle | src/components/debounce-search/DebounceSearch.tsx:94-143 | each event runs its callback: typing sets the raw query, waiting changes nothing, load-more and scroll are `LoadMore` and `Scroll`, the timer runs the query effect exactly when the debouncer publishes, and a response settles its request with the search call's outcome; hence a reset fetch comes only from the debounce timer, for the non-blank raw query that differs from the old debounced value, an append fetch only from load-more or scroll, for the next page, and the raw query changes only on typing |
| Component.Dispatch | src/components/debounce-search/DebounceSearch.tsx:94-113 | an event runs its callback on the search state and moves the debouncer on; the raw query and the debouncer's input stay in step, loading is up only while a request is outstanding, a response removes its own request and a started fetch is added as outstanding |
| Component.TypingStartsNoSearch | src/components/debounce-search/DebounceSearch.tsx:94 | a burst of changing values with pauses shorter than the delay starts no search, changes nothing in the search state but the raw query, and leaves the debounced value and the outstanding requests as they were |
| Component.OneSearchPerBurst | src/components/debounce-search/DebounceSearch.tsx:94 | such a burst followed by the delay starts at most one search: page 1 of the last value typed, iff it is not blank and differs from the previous debounced value; it is then outstanding |
| Component.WaitThenFire | src/components/debounce-search/DebounceSearch.tsx:94-143 | waiting out the delay and letting the timer run starts a search for the raw query exactly when it is not blank and differs from the debounced value, and the search state is then the query effect's |
| Component.SearchShowsFirstPage | src/components/debounce-search/DebounceSearch.tsx:94-113 | when the search a burst starts succeeds, the list is page 1 of the last value typed, loading is over and nothing else is outstanding |
| Component.StaleResponseWins | src/components/debounce-search/DebounceSearch.tsx:96-113 | if responses can arrive out of request order (a search call whose latency varies, unlike the mock's constant 800 ms), an older query's response arriving after a newer query's replaces the newer list and count with the older query's page |
| Component.InOrderNewestWins | src/components/debounce-search/DebounceSearch.tsx:31-53 | with the mock's constant latency, responses settle in request order, so after two reset searches the newer query's page and count are left showing, loading is over and nothing is outstanding |
| Component.MountQuiet | src/components/debounce-search/DebounceSearch.tsx:68-73 | the mount timer, once the delay has passed and it fires, publishes the empty value that is already debounced, so it starts no search and leaves the initial search state |
| Findings.PageNotResetSkipsResults | src/components/debounce-search/DebounceSearch.tsx:135-143 | as written, a new search on a stale page 2 followed by load-more fetches page 3: the fourth item listed is the seventh result, and the list is no longer consistent |
| Findings.QueryASkipsFourToEight | src/components/debounce-search/DebounceSearch.tsx:135-143 | for the query "a", that list shows ids 3, 4, 5, then 9 |
| Findings.ReachPageTwo | src/components/debounce-search/DebounceSearch.tsx:116-143 | the stale page-2 state is reachable: search, load more, clear the query, type the same query again |
| Findings.PageResetKeepsResults | src/components/debounce-search/DebounceSearch.tsx:135-143 | with the corrected effect, the same trace asks for page 2 and shows the first six results, consistently |
| Findings.FailedLoadMoreSkipsPage | src/components/debounce-search/DebounceSearch.tsx:116-122 | as written, a failed load-more still advances the page, so the retry fetches page 3 and the fourth item listed is the seventh result |
| Findings.QueryAFailedRetrySkips | src/components/debounce-search/DebounceSearch.tsx:109-122 | for the query "a": search, failed load-more, successful load-more shows ids 3, 4, 5, then 9 |
| Findings.FailedLoadMoreRetried | src/components/debounce-search/DebounceSearch.tsx:109-122 | with the corrected settle step, the retry asks for page 2 again and shows the first six results, consistently |
| Toast.Show | src/components/toast/Toast.tsx:16-24 | showing appends exactly one visible entry with the id, the kind and the kind's message, and leaves earlier entries unchanged |
| Toast.Hide | src/components/toast/Toast.tsx:26-31 | hiding keeps the length and order, makes the entries with the id invisible and leaves all others unchanged |
| Toast.Remove | src/components/toast/Toast.tsx:33-35 | removal keeps exactly the entries with other ids |
| Toast.HideRemoveAppend | src/components/toast/Toast.tsx:27-34 | hiding and removing act entry by entry, so removal keeps the relative order of the rest |
| Toast.HideRemoveIdempotent | src/components/toast/Toast.tsx:27-34 | hiding twice is hiding once; removing twice is removing once |
| Toast.AbsentIdUntouched | src/components/toast/Toast.tsx:27-34 | hiding or removing an id not in the list changes nothing |
| Toast.RemoveAfterHide | src/components/toast/Toast.tsx:27-34 | removing after hiding is the same as removing alone |
| Toast.Lifecycle | src/components/toast/Toast.tsx:16-37 | a notification with a new id is shown at the end, hidden in place, and removed, leaving the list as it was before the click |
| Toast.SameMillisecondToastsVanishTogether | src/components/toast/Toast.tsx:18-34 | two clicks with the same timestamp share an id, so the first one's hide and removal act on both |

## Left out

- Asynchrony within a callback. Each callback is one atomic step up to
  its `await`; the rest runs when the response event arrives. React's
  batching of state updates is not modelled.
- The order of responses. `Settle(index, failed)` lets any outstanding
  request settle next. This over-approximates the mock API, whose constant
  latency makes responses arrive in request order, so that only
  `Settle(0, _)` occurs (`Component.InOrderNewestWins`). The race in
  `Component.StaleResponseWins` needs a search call with varying latency;
  with that, the code as written lets a late response to a superseded query
  overwrite a newer query's list.
- Real time. The 800 ms latency of the mock API is left out. The 300 ms
  debounce delay is modelled on an abstract clock. The toast's 3000 ms and
  300 ms timers are reduced to the order of the hide and remove steps.
- `Math.random()`, `Date.now()` and the scroll geometry. They become the
  inputs `failed`, the notification id and `nearBottom`.
- Registering and removing the scroll listener (`:145-148`), and unmount
  cleanup of a pending debounce timer.
- `memo`, `useCallback`, rendering, CSS classes and the price formatting
  (`toLocaleString`).
- `src/api/ApiClient.ts`, `src/api/interceptors.ts` and `src/api/types.ts`
  are not part of this model. They are an HTTP wrapper unrelated to the
  components.
- Text.Lower: models ASCII case mapping only. JavaScript's `toLowerCase`
  maps the whole of Unicode. Strings are sequences of characters, not
  UTF-16 code units.
- The idempotence of re-fetching the same `(query, page)` holds because
  `Catalogue.SearchIn` is a function. It has no separate lemma.

## Findings

| source | as written | input that shows it | evidently intended | confidence | as-written member | corrected member |
|---|---|---|---|---|---|---|
| src/components/debounce-search/DebounceSearch.tsx:135-143 | a new debounced query starts a reset fetch of page 1, but nothing sets `page` back to 1 | query "a" (7 results): search, load more (page 2), clear the input, type "a" again; then load more fetches page 3 and the list shows ids 3, 4, 5, 9 | a new search resets `page` to 1, so the next load-more fetches page 2 | high; not executed | Findings.PageNotResetSkipsResults | Findings.PageResetKeepsResults |
| src/components/debounce-search/DebounceSearch.tsx:116-122 | load-more advances `page` before its fetch, and a failed fetch (`:109-110`) does not undo it | query "a": search, load more while the mock API fails, load more again; page 3 is fetched and the list shows ids 3, 4, 5, 9 | a failed page is retried by the next load-more | medium; not executed | Findings.FailedLoadMoreSkipsPage | Findings.FailedLoadMoreRetried |

The transitions `Search.QueryChanged` and `Search.SettleFetch` model the
code as written. The corrected `Search.QueryChangedFixed` and
`Search.SettleFetchFixed` are what the consistency lemmas
(`Search.FreshQueryConsistent`, `Search.LoadMoreConsistent`) are about.

=== FILE: catalogue.dfy ===
/** The mock product catalogue and the mock search API of the product-search
    demo (`mockProducts` and `searchProducts`), without the artificial latency
    and the random failure, which the Search module receives as an explicit
    fetch outcome. */
module Catalogue {
  import opened Seqs
  import opened Text

  datatype Product = Product(id: int, name: string, price: int)

  /** The nine catalogue entries, in catalogue order. */
  const MockProducts: seq<Product> := [
    Product(1, "iPhone 15", 32900),
    Product(2, "iPhone 15 Pro", 42900),
    Product(3, "iPhone 15 Pro Max", 49900),
    Product(4, "AirPods Pro", 7990),
    Product(5, "MacBook Air", 34900),
    Product(6, "MacBook Pro", 74900),
    Product(7, "iPad Pro", 27900),
    Product(8, "Apple Watch", 14900),
    Product(9, "iMac", 39900)
  ]

  const PageSize: int := 3

  /** What one call of the search API resolves to. */
  datatype SearchResult = SearchResult(data: seq<Product>, total: int, hasMore: bool)

  function Id(p: Product): int
  {
    p.id
  }

  /** Case-insensitive substring match of the query on the product name. */
  predicate NameMatches(p: Product, query: string)
  {
    Includes(Lower(p.name), Lower(query))
  }

  /** Every entry of `catalogue` whose name matches `query`, in catalogue
      order (the `filter` step of the search). */
  function MatchesIn(catalogue: seq<Product>, query: string): seq<Product>
  {
    Filter(catalogue, p => NameMatches(p, query))
  }

  /** The matches in the mock catalogue. */
  function Matches(query: string): seq<Product>
  {
    MatchesIn(MockProducts, query)
  }

  function Min(a: int, b: int): int
  {
    if a <= b then a else b
  }

  function Max(a: int, b: int): int
  {
    if a <= b then b else a
  }

  /** JavaScript's `Array.prototype.slice(start, end)` on integer arguments:
      a negative bound counts from the end, and bounds are clamped to the
      array. */
  function JsSlice<T>(s: seq<T>, start: int, end: int): (r: seq<T>)
    ensures |r| <= |s|
    ensures 0 <= start && start <= end ==> r == s[Min(start, |s|)..Min(end, |s|)]
    ensures 0 <= end <= start ==> r == []
  {
    var from := if start < 0 then Max(|s| + start, 0) else Min(start, |s|);
    var to := if end < 0 then Max(|s| + end, 0) else Min(end, |s|);
    if from < to then s[from..to] else []
  }

  /** Model of `searchProducts(query, page)` over a given catalogue, once it
      has decided not to fail: filter, then cut out page `page` of size 3. */
  function SearchIn(catalogue: seq<Product>, query: string, page: int): (r: SearchResult)
    ensures r.total == |MatchesIn(catalogue, query)|
    ensures r.hasMore <==> page * PageSize < r.total
    ensures |r.data| <= PageSize
    ensures forall p :: p in r.data ==> p in catalogue && NameMatches(p, query)
    ensures page >= 1 ==>
      r.data == MatchesIn(catalogue, query)[Min((page - 1) * PageSize, r.total)..Min(page * PageSize, r.total)]
    ensures page >= 1 && (page - 1) * PageSize >= r.total ==> r.data == []
  {
    var results := MatchesIn(catalogue, query);
    var data := JsSlice(results, (page - 1) * PageSize, page * PageSize);
    assert |data| <= PageSize by {
      var len := |results|;
      var start := (page - 1) * PageSize;
      var end := page * PageSize;
      var from := if start < 0 then Max(len + start, 0) else Min(start, len);
      var to := if end < 0 then Max(len + end, 0) else Min(end, len);
      assert to - from <= end - start;
    }
    SearchResult(data, |results|, page * PageSize < |results|)
  }

  /** `searchProducts` itself: the search over the mock catalogue. */
  function SearchProducts(query: string, page: int): SearchResult
  {
    SearchIn(MockProducts, query, page)
  }

  /** The catalogue lists its products by strictly increasing id. */
  lemma CatalogueSortedById()
    ensures StrictlyIncreasing(MockProducts, Id)
  {
  }

  /** The results come in catalogue order: when the catalogue's ids strictly
      increase so do the results', and a catalogue product is among the
      results exactly when its name matches. */
  lemma MatchesInCatalogueOrder(catalogue: seq<Product>, query: string)
    requires StrictlyIncreasing(catalogue, Id)
    ensures StrictlyIncreasing(MatchesIn(catalogue, query), Id)
    ensures forall p :: p in MatchesIn(catalogue, query) <==> p in catalogue && NameMatches(p, query)
  {
    FilterKeepsOrder(catalogue, p => NameMatches(p, query), Id);
  }

  /** Every matching catalogue product is returned on some page. */
  lemma EveryMatchOnSomePage(catalogue: seq<Product>, query: string, p: Product)
    requires p in catalogue && NameMatches(p, query)
    ensures exists page :: page >= 1 && p in SearchIn(catalogue, query, page).data
  {
    var results := MatchesIn(catalogue, query);
    assert p in results;
    var k :| 0 <= k < |results| && results[k] == p;
    var q := k / 3;
    assert 3 * q <= k < 3 * q + 3;
    var page := q + 1;
    assert (page - 1) * PageSize == 3 * q && page * PageSize == 3 * q + 3;
    var data := SearchIn(catalogue, query, page).data;
    assert data == results[3 * q..Min(3 * q + 3, |results|)];
    assert data[k - 3 * q] == p;
  }

  /** Pages 1..k of `query`, concatenated in order, as an append-mode client
      accumulates them. */
  function AccumulatedIn(catalogue: seq<Product>, query: string, k: nat): seq<Product>
  {
    if k == 0 then [] else AccumulatedIn(catalogue, query, k - 1) + SearchIn(catalogue, query, k).data
  }

  /** Pages 1..k, concatenated, are exactly the first min(3k, total) matches. */
  lemma {:induction false} AccumulatedIsPrefix(catalogue: seq<Product>, query: string, k: nat)
    ensures AccumulatedIn(catalogue, query, k)
         == MatchesIn(catalogue, query)[..Min(k * PageSize, |MatchesIn(catalogue, query)|)]
  {
    if k > 0 {
      AccumulatedIsPrefix(catalogue, query, k - 1);
      var results := MatchesIn(catalogue, query);
      assert (k - 1) * PageSize == 3 * k - 3 && k * PageSize == 3 * k;
      var a := Min(3 * k - 3, |results|);
      var b := Min(3 * k, |results|);
      assert SearchIn(catalogue, query, k).data == results[a..b];
      PrefixThenSlice(results, a, b);
    }
  }

  /** A name that lacks some character of the lower-cased query does not
      match it. */
  lemma MissingCharNoMatch(p: Product, query: string, j: int)
    requires 0 <= j < |query| && Lower(query)[j] !in Lower(p.name)
    ensures !NameMatches(p, query)
  {
  }

  /** Matching distributes over concatenation of catalogues. */
  lemma MatchesInConcat(a: seq<Product>, b: seq<Product>, query: string)
    ensures MatchesIn(a + b, query) == MatchesIn(a, query) + MatchesIn(b, query)
  {
    FilterConcat(a, b, p => NameMatches(p, query));
  }

  /** The first three catalogue entries match "iphone". */
  lemma IphonesMatch()
    ensures MatchesIn(MockProducts[..3], "iphone") == MockProducts[..3]
  {
    var q, iphones := "iphone", MockProducts[..3];
    assert Lower(q) == q;
    forall i | 0 <= i < |iphones| ensures NameMatches(iphones[i], q) {
      assert OccursAt(Lower(iphones[i].name), q, 0);
    }
    FilterKeepsAll(iphones, p => NameMatches(p, q));
  }

  /** A catalogue none of whose names matches yields no results. */
  lemma NoneMatch(catalogue: seq<Product>, query: string)
    requires forall i :: 0 <= i < |catalogue| ==> !NameMatches(catalogue[i], query)
    ensures MatchesIn(catalogue, query) == []
  {
    FilterKeepsNone(catalogue, p => NameMatches(p, query));
  }

  /** A name without the letter "n" cannot contain "iphone". */
  lemma NoIphoneWithoutN(p: Product)
    requires 'n' !in Lower(p.name)
    ensures !NameMatches(p, "iphone")
  {
    assert Lower("iphone") == "iphone";
    MissingCharNoMatch(p, "iphone", 4);
  }

  /** The names of the last six entries have no "n" in either case. */
  lemma NoN(i: int)
    requires 0 <= i < 6
    ensures 'n' !in Lower(MockProducts[3 + i].name)
  {
    var names := ["AirPods Pro", "MacBook Air", "MacBook Pro", "iPad Pro", "Apple Watch", "iMac"];
    assert MockProducts[3 + i].name == names[i];
    NoNIn(names[i]);
  }

  lemma NoNIn(name: string)
    requires name in ["AirPods Pro", "MacBook Air", "MacBook Pro", "iPad Pro", "Apple Watch", "iMac"]
    ensures 'n' !in Lower(name)
  {
    assert 'n' !in name && 'N' !in name;
    LowerMissing(name, 'n');
  }

  /** None of the other six entries contains an "n", so none matches "iphone". */
  lemma OthersDoNotMatchIphone()
    ensures MatchesIn(MockProducts[3..], "iphone") == []
  {
    var others := MockProducts[3..];
    forall i | 0 <= i < |others| ensures !NameMatches(others[i], "iphone") {
      NoN(i);
      NoIphoneWithoutN(others[i]);
    }
    NoneMatch(others, "iphone");
  }

  /** Searching "iphone" returns the three iPhones on one page, and says
      there is nothing more. */
  lemma IphoneScenario()
    ensures SearchProducts("iphone", 1) == SearchResult(MockProducts[..3], 3, false)
    ensures [MockProducts[0].id, MockProducts[1].id, MockProducts[2].id] == [1, 2, 3]
  {
    assert MockProducts == MockProducts[..3] + MockProducts[3..];
    MatchesInConcat(MockProducts[..3], MockProducts[3..], "iphone");
    IphonesMatch();
    OthersDoNotMatchIphone();
  }
}

=== FILE: component.dfy ===
/** The product-search component as a whole: the search state together with
    the debouncer that `useDebounce(query, 300)` keeps for it and the search
    calls still awaiting their response. Typing updates the raw query and
    feeds the debouncer; only a change of the debounced value runs the query
    effect, and only the effect and load-more start a search. A response
    settles its own request whenever it arrives; the model admits any
    arrival order, of which the mock API's request order is one. */
module Component {
  import opened Options
  import opened Text
  import Debounce
  import opened Catalogue
  import opened Search

  /** The debounce delay the component asks for. */
  const QueryDelay: nat := 300

  /** The component's state, the debouncer, the requests whose response has
      not arrived yet (oldest first), and the catalogue the mock API reads. */
  datatype Page = Page(
    search: SearchState,
    debounce: Debounce.Debouncer,
    pending: seq<FetchRequest>,
    catalogue: seq<Product>)

  datatype UserEvent =
    | Type(value: string)               // the input's `onChange`
    | Wait(elapsed: nat)                // time passes
    | TimerFires                        // the debounce timer's callback runs if due
    | ClickLoadMore                     // the load-more button
    | ScrollTo(nearBottom: bool)        // a scroll event
    | Settle(index: nat, failed: bool)  // the response to `pending[index]` arrives

  /** The page on mount: empty query, the debouncer's mount timer pending for
      it, no search outstanding, and the mock catalogue. */
  function Mount(): (r: Page)
    ensures r.search == Initial && r.debounce.debounced == "" && r.debounce.input == ""
    ensures r.pending == [] && r.catalogue == MockProducts
  {
    Page(Initial, Debounce.Mount("", QueryDelay), [], MockProducts)
  }

  /** The raw query and the debouncer's input are the same value, the
      debouncer is valid and uses the component's delay, and the loading flag
      is only ever up while some response is still outstanding. */
  predicate Synced(p: Page)
  {
    && p.debounce.input == p.search.query
    && Debounce.Valid(p.debounce)
    && p.debounce.delay == QueryDelay
    && (p.search.isLoading ==> |p.pending| > 0)
  }

  /** One user, timer or network event: the new search state and the fetch
      it started. */
  function Handle(p: Page, e: UserEvent): (r: Step)
    ensures r.fetch.Some? && r.fetch.value.reset ==>
      e.TimerFires? && !IsBlank(r.fetch.value.query) && r.fetch.value.page == 1
    ensures Synced(p) && r.fetch.Some? && r.fetch.value.reset ==>
      r.fetch.value.query == p.search.query != p.debounce.debounced
    ensures r.fetch.Some? && !r.fetch.value.reset ==>
      (e.ClickLoadMore? || e.ScrollTo?) && r.fetch.value == FetchRequest(p.search.query, p.search.page + 1, false)
    ensures e.Type? || e.Wait? || e.Settle? ==> r.fetch.None?
    ensures e.Settle? && e.index < |p.pending| ==>
      var req := p.pending[e.index];
      && !r.state.isLoading
      && (e.failed ==> r.state.products == p.search.products && r.state.error == Some(FailureMessage))
      && (!e.failed ==>
            var data := SearchIn(p.catalogue, req.query, req.page).data;
            r.state.products == (if req.reset then data else p.search.products + data))
    ensures e.Settle? && e.index >= |p.pending| ==> r.state == p.search
    ensures r.state.query == (if e.Type? then e.value else p.search.query)
    ensures e.Type? ==> r == Step(SetQuery(p.search, e.value), None)
    ensures e.Wait? ==> r == Step(p.search, None)
    ensures e.ClickLoadMore? ==> r == LoadMore(p.search)
    ensures e.ScrollTo? ==> r == Scroll(p.search, e.nearBottom)
    ensures e.TimerFires? ==>
      var o := Debounce.Step(p.debounce, Debounce.Fire);
      r == (if o.changed.Some? then QueryChanged(p.search, o.changed.value) else Step(p.search, None))
    ensures e.Settle? && e.index < |p.pending| ==>
      r.state == SettleFetch(p.search, p.pending[e.index], Outcome(p.catalogue, p.pending[e.index], e.failed))
    ensures r.state.isLoading ==> r.fetch.Some? || p.search.isLoading
  {
    match e
    case Type(v) => Step(SetQuery(p.search, v), None)
    case Wait(_) => Step(p.search, None)
    case TimerFires =>
      var o := Debounce.Step(p.debounce, Debounce.Fire);
      if o.changed.Some? then QueryChanged(p.search, o.changed.value) else Step(p.search, None)
    case ClickLoadMore => LoadMore(p.search)
    case ScrollTo(nearBottom) => Scroll(p.search, nearBottom)
    case Settle(k, failed) =>
      if k < |p.pending| then
        var req := p.pending[k];
        Step(SettleFetch(p.search, req, Outcome(p.catalogue, req, failed)), None)
      else Step(p.search, None)
  }

  /** The debouncer after the event. */
  function Next(p: Page, e: UserEvent): (d: Debounce.Debouncer)
    ensures d.input == (if e.Type? then e.value else p.debounce.input)
  {
    match e
    case Type(v) => Debounce.Step(p.debounce, Debounce.Input(v)).state
    case Wait(ms) => Debounce.Step(p.debounce, Debounce.Tick(ms)).state
    case TimerFires => Debounce.Step(p.debounce, Debounce.Fire).state
    case _ => p.debounce
  }

  /** The whole event: the handled search step, the debouncer moved on, the
      settled request no longer outstanding and a started one outstanding. */
  function Dispatch(p: Page, e: UserEvent): (r: (Page, Option<FetchRequest>))
    ensures Synced(p) ==> Synced(r.0)
    ensures r.1 == Handle(p, e).fetch
    ensures r.0.search == Handle(p, e).state && r.0.debounce == Next(p, e)
    ensures r.0.catalogue == p.catalogue
    ensures e.Settle? && e.index < |p.pending| ==>
      r.0.pending == p.pending[..e.index] + p.pending[e.index + 1..]
    ensures !(e.Settle? && e.index < |p.pending|) ==>
      r.0.pending == (if r.1.Some? then p.pending + [r.1.value] else p.pending)
  {
    var st := Handle(p, e);
    var kept := if e.Settle? && e.index < |p.pending| then p.pending[..e.index] + p.pending[e.index + 1..] else p.pending;
    (Page(st.state, Next(p, e), if st.fetch.Some? then kept + [st.fetch.value] else kept, p.catalogue), st.fetch)
  }

  /** The mounted page is synced, and once the mount timer has waited out
      the delay and fires, it starts no search and leaves the search state
      as it was: the value it publishes, "", is already the debounced one. */
  lemma MountQuiet()
    ensures Synced(Mount())
    ensures Run(Mount(), [Wait(QueryDelay), TimerFires]).1 == []
    ensures Run(Mount(), [Wait(QueryDelay), TimerFires]).0.search == Initial
  {
    assert Synced(Mount());
    WaitThenFire(Mount());
  }

  /** The page after a sequence of events, and the fetches started on the
      way, in order. */
  function Run(p: Page, events: seq<UserEvent>): (r: (Page, seq<FetchRequest>))
    ensures Synced(p) ==> Synced(r.0)
    ensures r.0.catalogue == p.catalogue
    decreases |events|
  {
    if |events| == 0 then (p, [])
    else
      var first := Dispatch(p, events[0]);
      var rest := Run(first.0, events[1..]);
      (rest.0, (if first.1.Some? then [first.1.value] else []) + rest.1)
  }

  lemma RunConcat(p: Page, a: seq<UserEvent>, b: seq<UserEvent>)
    ensures Run(p, a + b).0 == Run(Run(p, a).0, b).0
    ensures Run(p, a + b).1 == Run(p, a).1 + Run(Run(p, a).0, b).1
  {
    RunIsFold(p, a + b);
    RunIsFold(p, a);
    RunIsFold(Run(p, a).0, b);
    FoldConcat(Dispatch, p, a, b);
  }

  /** `Run` with the step left as a parameter, so that facts about the order
      of events can be proved without looking inside a step. */
  function Fold(step: (Page, UserEvent) -> (Page, Option<FetchRequest>), p: Page, events: seq<UserEvent>): (r: (Page, seq<FetchRequest>))
    ensures |r.1| <= |events|
    decreases |events|
  {
    if |events| == 0 then (p, [])
    else
      var first := step(p, events[0]);
      var rest := Fold(step, first.0, events[1..]);
      (rest.0, (if first.1.Some? then [first.1.value] else []) + rest.1)
  }

  lemma {:induction false} RunIsFold(p: Page, events: seq<UserEvent>)
    ensures Run(p, events) == Fold(Dispatch, p, events)
    decreases |events|
  {
    if |events| > 0 {
      RunIsFold(Dispatch(p, events[0]).0, events[1..]);
    }
  }

  lemma {:induction false} FoldConcat(step: (Page, UserEvent) -> (Page, Option<FetchRequest>), p: Page, a: seq<UserEvent>, b: seq<UserEvent>)
    ensures Fold(step, p, a + b).0 == Fold(step, Fold(step, p, a).0, b).0
    ensures Fold(step, p, a + b).1 == Fold(step, p, a).1 + Fold(step, Fold(step, p, a).0, b).1
    decreases |a|
  {
    if |a| > 0 {
      assert (a + b)[0] == a[0];
      assert (a + b)[1..] == a[1..] + b;
      FoldConcat(step, step(p, a[0]).0, a[1..], b);
    } else {
      assert a + b == b;
    }
  }

  /** Running `[e] + es` runs `e` and then `es`. */
  lemma RunCons(p: Page, e: UserEvent, es: seq<UserEvent>)
    ensures Run(p, [e] + es).0 == Run(Run(p, [e]).0, es).0
    ensures Run(p, [e] + es).1 == Run(p, [e]).1 + Run(Run(p, [e]).0, es).1
  {
    assert ([e] + es)[0] == e;
    assert ([e] + es)[1..] == es;
    RunOne(p, e);
  }

  /** Running a single event is dispatching it. */
  lemma RunOne(p: Page, e: UserEvent)
    ensures Run(p, [e]).0 == Dispatch(p, e).0
    ensures Run(p, [e]).1 == (if Dispatch(p, e).1.Some? then [Dispatch(p, e).1.value] else [])
  {
    assert [e][0] == e;
    assert [e][1..] == [];
    var first := Dispatch(p, e);
    var start: seq<FetchRequest> := if first.1.Some? then [first.1.value] else [];
    assert start + [] == start;
  }

  /** The events of typing `vs`: each value is entered, the pause `gaps[i]`
      passes, and the debounce timer's callback runs if it is due. */
  function Keystrokes(vs: seq<string>, gaps: seq<nat>): (r: seq<UserEvent>)
    requires |gaps| == |vs|
    ensures |r| == 3 * |vs|
    decreases |vs|
  {
    if |vs| == 0 then [] else [Type(vs[0]), Wait(gaps[0]), TimerFires] + Keystrokes(vs[1..], gaps[1..])
  }

  /** The page after one keystroke of a burst and its short pause. */
  function Quiet(p: Page, v: string, g: nat): (r: Page)
    ensures r.search.query == v && r.debounce.input == v
  {
    p.(search := p.search.(query := v),
       debounce := p.debounce.(now := p.debounce.now + g, input := v,
                               timer := Some(Debounce.Timer(v, p.debounce.now))))
  }

  /** One keystroke that changes the query, then a pause shorter than the
      delay: the debounce timer restarts and is not due when checked, so no
      search starts and only the raw query changes. */
  lemma KeystrokeQuiet(p: Page, v: string, g: nat)
    requires Synced(p) && v != p.search.query && g < QueryDelay
    ensures var t := Run(p, [Type(v), Wait(g), TimerFires]);
            var r := t.0;
            var fetches := t.1;
            && fetches == []
            && Synced(r)
            && r == Quiet(p, v, g)
  {
    var p1 := Dispatch(p, Type(v)).0;
    var p2 := Dispatch(p1, Wait(g)).0;
    assert p2.debounce.timer == Some(Debounce.Timer(v, p.debounce.now));
    assert !Debounce.Due(p2.debounce);
    assert Dispatch(p2, TimerFires) == (p2, None);
    assert [Type(v), Wait(g), TimerFires][1..] == [Wait(g), TimerFires];
    assert [Wait(g), TimerFires][1..] == [TimerFires];
    RunOne(p2, TimerFires);
  }

  /** Typing starts no search while every pause is shorter than the delay:
      only the raw query and the debouncer's input follow the keystrokes, the
      debounced value stays and no request is added. */
  lemma {:induction false} TypingStartsNoSearch(p: Page, vs: seq<string>, gaps: seq<nat>)
    requires Synced(p) && Debounce.Typing(p.search.query, vs, gaps, QueryDelay)
    ensures var t := Run(p, Keystrokes(vs, gaps));
            var r := t.0;
            var fetches := t.1;
            && fetches == []
            && Synced(r)
            && r.search == p.search.(query := r.search.query)
            && r.search.query == (if |vs| == 0 then p.search.query else vs[|vs| - 1])
            && r.debounce.debounced == p.debounce.debounced
            && r.pending == p.pending
    decreases |vs|
  {
    if |vs| > 0 {
      var q := Quiet(p, vs[0], gaps[0]);
      var rest := Keystrokes(vs[1..], gaps[1..]);
      assert Synced(q) by { KeystrokeQuiet(p, vs[0], gaps[0]); }
      assert Debounce.Typing(q.search.query, vs[1..], gaps[1..], QueryDelay);
      assert Run(p, Keystrokes(vs, gaps)) == Run(q, rest) by {
        assert Keystrokes(vs, gaps) == [Type(vs[0]), Wait(gaps[0]), TimerFires] + rest;
        TypingStep(p, vs[0], gaps[0], rest);
      }
      TypingStartsNoSearch(q, vs[1..], gaps[1..]);
      if |vs| > 1 {
        assert vs[1..][|vs[1..]| - 1] == vs[|vs| - 1];
      }
    }
  }

  /** The first keystroke of a burst leaves the page `Quiet` describes and
      starts no search; the rest of the burst then runs from there. */
  lemma TypingStep(p: Page, v: string, g: nat, rest: seq<UserEvent>)
    requires Synced(p) && v != p.search.query && g < QueryDelay
    ensures Run(p, [Type(v), Wait(g), TimerFires] + rest).0 == Run(Quiet(p, v, g), rest).0
    ensures Run(p, [Type(v), Wait(g), TimerFires] + rest).1 == Run(Quiet(p, v, g), rest).1
  {
    var first := [Type(v), Wait(g), TimerFires];
    KeystrokeQuiet(p, v, g);
    RunConcat(p, first, rest);
    assert [] + Run(Quiet(p, v, g), rest).1 == Run(Quiet(p, v, g), rest).1;
  }

  /** The timer's callback on a due (or already published) timer runs the
      query effect exactly when the raw query differs from the debounced
      value; a search starts when that query is not blank, and it is then
      outstanding. */
  lemma FireDue(q: Page)
    requires Synced(q) && (Debounce.Due(q.debounce) || q.debounce.timer.None?)
    ensures var t := Run(q, [TimerFires]);
            var r := t.0;
            var fetches := t.1;
            && fetches
               == (if q.search.query != q.debounce.debounced && !IsBlank(q.search.query)
                   then [FetchRequest(q.search.query, 1, true)] else [])
            && r.pending == q.pending + fetches
            && r.search
               == (if q.search.query != q.debounce.debounced
                   then QueryChanged(q.search, q.search.query).state else q.search)
  {
    var o := Debounce.Step(q.debounce, Debounce.Fire);
    assert (o.changed.Some? <==> q.search.query != q.debounce.debounced)
           && (o.changed.Some? ==> o.changed.value == q.search.query);
    var d := Dispatch(q, TimerFires);
    assert d.1 == Handle(q, TimerFires).fetch && d.0.search == Handle(q, TimerFires).state;
    RunOne(q, TimerFires);
    assert q.pending + [] == q.pending;
  }

  /** Waiting out the delay and letting the timer run starts a search for
      the raw query exactly when it is not blank and differs from the
      debounced value; that search is then outstanding, and the search state
      is the query effect's. */
  lemma WaitThenFire(p: Page)
    requires Synced(p)
    ensures var t := Run(p, [Wait(QueryDelay), TimerFires]);
            var r := t.0;
            var fetches := t.1;
            && fetches
               == (if p.search.query != p.debounce.debounced && !IsBlank(p.search.query)
                   then [FetchRequest(p.search.query, 1, true)] else [])
            && r.pending == p.pending + fetches
            && r.search
               == (if p.search.query != p.debounce.debounced
                   then QueryChanged(p.search, p.search.query).state else p.search)
  {
    WaitDelay(p);
    FireDue(Run(p, [Wait(QueryDelay)]).0);
  }

  /** Waiting out the delay changes only the clock, after which the pending
      timer, if any, is due. */
  lemma WaitDelay(p: Page)
    requires Synced(p)
    ensures var waited := Run(p, [Wait(QueryDelay)]).0;
            && Run(p, [Wait(QueryDelay), TimerFires]) == Run(waited, [TimerFires])
            && Synced(waited) && waited.search == p.search && waited.pending == p.pending
            && waited.debounce.debounced == p.debounce.debounced
            && (Debounce.Due(waited.debounce) || waited.debounce.timer.None?)
  {
    var waited := Run(p, [Wait(QueryDelay)]).0;
    assert [Wait(QueryDelay)] + [TimerFires] == [Wait(QueryDelay), TimerFires];
    RunConcat(p, [Wait(QueryDelay)], [TimerFires]);
    RunOne(p, Wait(QueryDelay));
    assert [] + Run(waited, [TimerFires]).1 == Run(waited, [TimerFires]).1;
  }

  /** A burst of typing with pauses shorter than the delay, followed by the
      delay, starts at most one search: a reset fetch of page 1 for the last
      value typed, and only when that value is not blank and differs from the
      previous debounced value. */
  lemma OneSearchPerBurst(p: Page, vs: seq<string>, gaps: seq<nat>)
    requires Synced(p) && |vs| > 0 && Debounce.Typing(p.search.query, vs, gaps, QueryDelay)
    ensures var last := vs[|vs| - 1];
            var t := Run(p, Keystrokes(vs, gaps) + [Wait(QueryDelay), TimerFires]);
            var r := t.0;
            var fetches := t.1;
            && fetches
               == (if last != p.debounce.debounced && !IsBlank(last)
                   then [FetchRequest(last, 1, true)] else [])
            && r.pending == p.pending + fetches
            && r.search.query == last
  {
    TypingStartsNoSearch(p, vs, gaps);
    var typed := Run(p, Keystrokes(vs, gaps)).0;
    RunConcat(p, Keystrokes(vs, gaps), [Wait(QueryDelay), TimerFires]);
    WaitThenFire(typed);
  }

  /** The successful response to the newest outstanding reset request
      shows its page and ends loading; that request is no longer
      outstanding. */
  lemma SettleNewest(q: Page, older: seq<FetchRequest>, req: FetchRequest)
    requires q.pending == older + [req] && req.reset
    ensures var r := Run(q, [Settle(|older|, false)]).0;
            && r.search.products == SearchIn(q.catalogue, req.query, req.page).data
            && !r.search.isLoading
            && r.pending == older
  {
    assert q.pending[|older|] == req;
    assert q.pending[..|older|] == older && q.pending[|older| + 1..] == [];
    RunOne(q, Settle(|older|, false));
  }

  /** When the search a burst starts succeeds, the list is page 1 of the
      last value typed and loading is over. */
  lemma SearchShowsFirstPage(p: Page, vs: seq<string>, gaps: seq<nat>)
    requires Synced(p) && |vs| > 0 && Debounce.Typing(p.search.query, vs, gaps, QueryDelay)
    requires vs[|vs| - 1] != p.debounce.debounced && !IsBlank(vs[|vs| - 1])
    ensures var r := Run(p, Keystrokes(vs, gaps) + [Wait(QueryDelay), TimerFires, Settle(|p.pending|, false)]).0;
            && r.search.products == SearchIn(p.catalogue, vs[|vs| - 1], 1).data
            && !r.search.isLoading
            && r.pending == p.pending
  {
    var last := vs[|vs| - 1];
    var searched := Keystrokes(vs, gaps) + [Wait(QueryDelay), TimerFires];
    var settle := Settle(|p.pending|, false);
    var s := Run(p, searched).0;
    assert s.pending == p.pending + [FetchRequest(last, 1, true)] by {
      OneSearchPerBurst(p, vs, gaps);
    }
    assert Run(p, Keystrokes(vs, gaps) + [Wait(QueryDelay), TimerFires, settle]).0 == Run(s, [settle]).0 by {
      assert Keystrokes(vs, gaps) + [Wait(QueryDelay), TimerFires, settle] == searched + [settle];
      RunConcat(p, searched, [settle]);
    }
    assert s.catalogue == p.catalogue;
    SettleNewest(s, p.pending, FetchRequest(last, 1, true));
  }

  /** Responses settle in arrival order, whatever order their requests were
      made in. With a search call whose latency varies, the response for an
      older query can arrive after the one for a newer query, and its page
      then replaces the newer query's list. */
  lemma StaleResponseWins(p: Page, older: string, newer: string)
    requires p.pending == [FetchRequest(older, 1, true), FetchRequest(newer, 1, true)]
    ensures var a := Dispatch(p, Settle(1, false)).0;
            var b := Dispatch(a, Settle(0, false)).0;
            && a.search.products == SearchIn(p.catalogue, newer, 1).data
            && b.search.products == SearchIn(p.catalogue, older, 1).data
            && b.search.total == |MatchesIn(p.catalogue, older)|
            && b.pending == [] && !b.search.isLoading
  {
    var a := Dispatch(p, Settle(1, false)).0;
    assert a.pending == [FetchRequest(older, 1, true)];
  }

  /** With a search call whose latency is the same for every request, as
      the mock API's is, responses arrive in request order: the oldest
      outstanding request always settles first, and the newer query's page
      is the one left showing. */
  lemma InOrderNewestWins(p: Page, older: string, newer: string)
    requires p.pending == [FetchRequest(older, 1, true), FetchRequest(newer, 1, true)]
    ensures var a := Dispatch(p, Settle(0, false)).0;
            var b := Dispatch(a, Settle(0, false)).0;
            && a.search.products == SearchIn(p.catalogue, older, 1).data
            && b.search.products == SearchIn(p.catalogue, newer, 1).data
            && b.search.total == |MatchesIn(p.catalogue, newer)|
            && b.pending == [] && !b.search.isLoading
  {
    var a := Dispatch(p, Settle(0, false)).0;
    assert a.pending == [FetchRequest(newer, 1, true)];
  }
}

=== FILE: debounce.dfy ===
/** `useDebounce(value, delay)` as an event machine. Time is an abstract
    clock advanced by `Tick` events; the pending `setTimeout` is a timer that
    remembers the value it will publish and when it was started; `Fire` is
    the moment the runtime runs a due timer's callback. */
module Debounce {
  import opened Options

  /** A pending `setTimeout(() => setDebouncedValue(value), delay)`. */
  datatype Timer = Timer(value: string, startedAt: int)

  /** The hook's state: the clock, the delay, the latest input value, the
      published (debounced) value and the pending timer, if any. */
  datatype Debouncer = Debouncer(
    now: int,
    delay: nat,
    input: string,
    debounced: string,
    timer: Option<Timer>)

  datatype Event =
    | Input(value: string)   // the hook is rendered with a new `value`
    | Tick(elapsed: nat)     // time passes
    | Fire                   // the runtime runs the pending timer if it is due

  /** A new state, and the debounced value if it just changed. Only a change
      re-runs the effects that depend on the debounced value. */
  datatype Output = Output(state: Debouncer, changed: Option<string>)

  /** The hook on mount: the debounced value starts as the initial value,
      and the mount effect schedules a timer for it. */
  function Mount(value: string, delay: nat): (r: Debouncer)
    ensures Valid(r) && r.delay == delay
    ensures r.input == value && r.debounced == value
    ensures r.timer == Some(Timer(value, r.now))
  {
    Debouncer(0, delay, value, value, Some(Timer(value, 0)))
  }

  /** The pending timer always carries the latest input and was started in
      the past; with no pending timer the debounced value is up to date. */
  predicate Valid(d: Debouncer)
  {
    match d.timer
    case Some(t) => t.value == d.input && t.startedAt <= d.now
    case None => d.debounced == d.input
  }

  /** Is the pending timer's delay over? */
  predicate Due(d: Debouncer)
  {
    d.timer.Some? && d.now >= d.timer.value.startedAt + d.delay
  }

  /** One event. A new input value re-runs the effect: its cleanup clears
      the pending timer and a new one starts now; an unchanged value does
      not re-run it. A due timer publishes its value and is gone. */
  function Step(d: Debouncer, e: Event): (r: Output)
    ensures Valid(d) ==> Valid(r.state)
    ensures r.state.delay == d.delay
    ensures r.changed.Some? ==>
      && e.Fire? && Due(d)
      && r.changed.value == d.timer.value.value != d.debounced
      && r.state.debounced == r.changed.value
    ensures Valid(d) && r.changed.Some? ==> r.changed.value == d.input
    ensures !e.Fire? ==> r.state.debounced == d.debounced
    ensures e.Input? ==> r.state.input == e.value
    ensures e.Input? && e.value != d.input ==>
      r.state == d.(input := e.value, timer := Some(Timer(e.value, d.now)))
    ensures e.Input? && e.value == d.input ==> r.state == d
    ensures e.Tick? ==> r.state == d.(now := d.now + e.elapsed)
    ensures e.Fire? && Due(d) ==>
      && r.state.timer.None? && r.state.debounced == d.timer.value.value
      && (r.changed.Some? <==> d.timer.value.value != d.debounced)
    ensures e.Fire? && Due(d) ==> r.state == d.(debounced := d.timer.value.value, timer := None)
    ensures e.Fire? && !Due(d) ==> r == Output(d, None)
  {
    match e
    case Input(v) =>
      if v == d.input then Output(d, None)
      else Output(d.(input := v, timer := Some(Timer(v, d.now))), None)
    case Tick(dt) =>
      Output(d.(now := d.now + dt), None)
    case Fire =>
      if Due(d) then
        var v := d.timer.value.value;
        Output(d.(debounced := v, timer := None), if v != d.debounced then Some(v) else None)
      else
        Output(d, None)
  }

  /** The state after a sequence of events, and every value published on the
      way, in order. */
  datatype Trace = Trace(state: Debouncer, published: seq<string>)

  function Run(d: Debouncer, events: seq<Event>): Trace
    decreases |events|
  {
    if |events| == 0 then Trace(d, [])
    else
      var o := Step(d, events[0]);
      var rest := Run(o.state, events[1..]);
      Trace(rest.state, (if o.changed.Some? then [o.changed.value] else []) + rest.published)
  }

  /** The total time the `Tick` events of `events` let pass. */
  function Elapsed(events: seq<Event>): nat
    decreases |events|
  {
    if |events| == 0 then 0
    else (if events[0].Tick? then events[0].elapsed else 0) + Elapsed(events[1..])
  }

  /** A burst: while a timer is pending and less than `delay` passes before
      the burst ends, nothing is published, however the inputs change. */
  lemma {:induction false} BurstPublishesNothing(d: Debouncer, events: seq<Event>)
    requires Valid(d) && d.timer.Some?
    requires d.now - d.timer.value.startedAt + Elapsed(events) < d.delay
    ensures Run(d, events).published == []
    ensures Run(d, events).state.debounced == d.debounced
    decreases |events|
  {
    if |events| > 0 {
      var o := Step(d, events[0]);
      assert o.changed.None?;
      BurstPublishesNothing(o.state, events[1..]);
    }
  }

  /** A changed input restarts the delay: however the clock and the input
      move afterwards, nothing is published before `delay` has passed since
      that input. */
  lemma NewInputRestartsDelay(d: Debouncer, v: string, events: seq<Event>)
    requires Valid(d) && v != d.input && Elapsed(events) < d.delay
    ensures Run(d, [Input(v)] + events).published == []
    ensures Run(d, [Input(v)] + events).state.debounced == d.debounced
  {
    var o := Step(d, Input(v));
    assert ([Input(v)] + events)[0] == Input(v);
    assert ([Input(v)] + events)[1..] == events;
    BurstPublishesNothing(o.state, events);
  }

  /** Running `a` then `b` is running `a + b`. */
  lemma {:induction false} RunConcat(d: Debouncer, a: seq<Event>, b: seq<Event>)
    ensures Run(d, a + b).state == Run(Run(d, a).state, b).state
    ensures Run(d, a + b).published == Run(d, a).published + Run(Run(d, a).state, b).published
    decreases |a|
  {
    if |a| > 0 {
      assert (a + b)[0] == a[0];
      assert (a + b)[1..] == a[1..] + b;
      RunConcat(Step(d, a[0]).state, a[1..], b);
    } else {
      assert a + b == b;
    }
  }

  /** Keystrokes `vs` that each change the value (the first one changes
      `prev`), each followed by a pause shorter than `delay`. */
  predicate Typing(prev: string, vs: seq<string>, gaps: seq<nat>, delay: nat)
  {
    && |gaps| == |vs|
    && (forall i :: 0 <= i < |gaps| ==> gaps[i] < delay)
    && (|vs| > 0 ==> vs[0] != prev)
    && (forall i :: 0 < i < |vs| ==> vs[i] != vs[i - 1])
  }

  /** The events of typing `vs`: each value is entered, the pause `gaps[i]`
      passes, and the runtime checks the pending timer. */
  function Burst(vs: seq<string>, gaps: seq<nat>): (r: seq<Event>)
    requires |gaps| == |vs|
    ensures |r| == 3 * |vs|
    decreases |vs|
  {
    if |vs| == 0 then [] else [Input(vs[0]), Tick(gaps[0]), Fire] + Burst(vs[1..], gaps[1..])
  }

  /** One keystroke that changes the value, then a pause shorter than the
      delay: the timer restarts at the keystroke and is not yet due when
      checked, so nothing is published. */
  lemma KeystrokeQuiet(d: Debouncer, v: string, g: nat)
    requires Valid(d) && v != d.input && g < d.delay
    ensures var r := Run(d, [Input(v), Tick(g), Fire]);
            && r.published == []
            && r.state == d.(now := d.now + g, input := v, timer := Some(Timer(v, d.now)))
  {
    var d1 := Step(d, Input(v)).state;
    var d2 := Step(d1, Tick(g)).state;
    assert !Due(d2);
    assert Run(d2, [Fire]) == Trace(d2, []);
    assert [Input(v), Tick(g), Fire][1..] == [Tick(g), Fire];
    assert [Tick(g), Fire][1..] == [Fire];
  }

  /** A burst of keystrokes, each followed by a pause shorter than the
      delay, publishes nothing and leaves the last value typed pending. */
  lemma {:induction false} BurstQuiet(d: Debouncer, vs: seq<string>, gaps: seq<nat>)
    requires Valid(d) && Typing(d.input, vs, gaps, d.delay)
    ensures var r := Run(d, Burst(vs, gaps));
            && r.published == []
            && Valid(r.state) && r.state.delay == d.delay
            && r.state.debounced == d.debounced
            && r.state.input == (if |vs| == 0 then d.input else vs[|vs| - 1])
    decreases |vs|
  {
    if |vs| > 0 {
      var first := [Input(vs[0]), Tick(gaps[0]), Fire];
      KeystrokeQuiet(d, vs[0], gaps[0]);
      var d1 := Run(d, first).state;
      assert Typing(d1.input, vs[1..], gaps[1..], d.delay);
      BurstQuiet(d1, vs[1..], gaps[1..]);
      assert Burst(vs, gaps) == first + Burst(vs[1..], gaps[1..]);
      RunConcat(d, first, Burst(vs[1..], gaps[1..]));
      if |vs| > 1 {
        assert vs[1..][|vs[1..]| - 1] == vs[|vs| - 1];
      }
    }
  }

  /** Only the last value of a burst gets through: type `vs` with pauses
      shorter than the delay, then wait `delay` and let the timer run. The
      debounced value becomes the last value typed, it is published if it
      differs from the previous debounced value, and nothing else is. */
  lemma LastInputWins(d: Debouncer, vs: seq<string>, gaps: seq<nat>)
    requires Valid(d) && |vs| > 0 && Typing(d.input, vs, gaps, d.delay)
    ensures var r := Run(d, Burst(vs, gaps) + [Tick(d.delay), Fire]);
            var last := vs[|vs| - 1];
            && r.state.debounced == last
            && r.state.timer.None?
            && r.published == (if last != d.debounced then [last] else [])
  {
    BurstQuiet(d, vs, gaps);
    var typed := Run(d, Burst(vs, gaps)).state;
    RunConcat(d, Burst(vs, gaps), [Tick(d.delay), Fire]);
    var waited := Step(typed, Tick(d.delay)).state;
    assert Run(typed, [Tick(d.delay), Fire]) == Run(waited, [Fire]);
    assert Valid(waited) && waited.input == vs[|vs| - 1];
  }
}

=== FILE: findings.dfy ===
/** Two traces of the search component, as written, whose list skips results,
    next to the corrected transitions that do not. The traces hold for any
    catalogue listed by increasing id and any query with at least seven
    results; in the mock catalogue the query "a" is one, matching the last
    seven entries (ids 3 to 9). */
module Findings {
  import opened Options
  import opened Text
  import opened Seqs
  import opened Catalogue
  import opened Search

  /** A catalogue listed by increasing id, and a non-blank query with at
      least seven results in it: enough for a third page. */
  predicate ManyMatches(catalogue: seq<Product>, query: string)
  {
    StrictlyIncreasing(catalogue, Id) && !IsBlank(query) && |MatchesIn(catalogue, query)| >= 7
  }

  /** Distinct positions of the results hold distinct products. */
  lemma ResultsDistinct(catalogue: seq<Product>, query: string, i: int, j: int)
    requires StrictlyIncreasing(catalogue, Id)
    requires 0 <= i < j < |MatchesIn(catalogue, query)|
    ensures MatchesIn(catalogue, query)[i] != MatchesIn(catalogue, query)[j]
  {
    MatchesInCatalogueOrder(catalogue, query);
  }

  /** Page 3 of a query with at least seven results starts with the
      seventh. */
  lemma ThirdPageStartsAtSeventh(catalogue: seq<Product>, query: string)
    requires |MatchesIn(catalogue, query)| >= 7
    ensures var d := SearchIn(catalogue, query, 3).data;
            |d| >= 1 && d[0] == MatchesIn(catalogue, query)[6]
  {
    var results := MatchesIn(catalogue, query);
    assert SearchIn(catalogue, query, 3).data == results[6..Min(9, |results|)];
  }

  /** As written, a debounced change to `query` whose fetch succeeds shows
      the first page and leaves `page` as it was. */
  lemma SearchSucceeds(s: SearchState, catalogue: seq<Product>, query: string)
    requires ManyMatches(catalogue, query)
    ensures var r := Complete(QueryChanged(s, query), catalogue, false);
            && r.products == MatchesIn(catalogue, query)[..3] && r.hasMore && !r.isLoading
            && r.page == s.page && r.query == s.query
  {
  }

  /** Clearing the query keeps the page and the raw query. */
  lemma ClearKeepsPage(s: SearchState, catalogue: seq<Product>)
    requires !s.isLoading
    ensures var r := Complete(QueryChanged(s, ""), catalogue, false);
            !r.isLoading && r.page == s.page && r.query == s.query
  {
    assert IsBlank("");
  }

  /** A load-more followed by the settling of its fetch, as written: the
      page advances whether or not the fetch fails. */
  lemma LoadMoreSettles(s: SearchState, catalogue: seq<Product>, failed: bool)
    requires !s.isLoading && s.hasMore
    ensures LoadMore(s).fetch == Some(FetchRequest(s.query, s.page + 1, false))
    ensures var r := Complete(LoadMore(s), catalogue, failed);
            && r.page == s.page + 1 && r.query == s.query && !r.isLoading
            && r.products
               == (if failed then s.products else s.products + SearchIn(catalogue, s.query, s.page + 1).data)
            && (failed ==> r.hasMore == s.hasMore && r.error == Some(FailureMessage))
  {
  }

  /** As written, page 2 is reachable with an idle component whose raw
      query is `query`: search `query`, load more, clear the input, then type
      `query` again, before the debounce fires. */
  lemma ReachPageTwo(catalogue: seq<Product>, query: string)
    requires ManyMatches(catalogue, query)
    ensures var s2 := Complete(QueryChanged(SetQuery(Initial, query), query), catalogue, false);
            var s3 := Complete(LoadMore(s2), catalogue, false);
            var s4 := SetQuery(Complete(QueryChanged(SetQuery(s3, ""), ""), catalogue, false), query);
            s4.page == 2 && !s4.isLoading && s4.query == query
  {
    SearchSucceeds(SetQuery(Initial, query), catalogue, query);
    var s2 := Complete(QueryChanged(SetQuery(Initial, query), query), catalogue, false);
    LoadMoreSettles(s2, catalogue, false);
    var s3 := Complete(LoadMore(s2), catalogue, false);
    ClearKeepsPage(SetQuery(s3, ""), catalogue);
  }

  /** The state both findings reach: idle on page 2 with only the first
      page listed. Load-more then fetches page 3, so the list goes on with
      the seventh result instead of the fourth. */
  lemma LoadMoreFromStalePage(r: SearchState, catalogue: seq<Product>)
    requires ManyMatches(catalogue, r.query)
    requires r.page == 2 && r.hasMore && !r.isLoading && r.products == MatchesIn(catalogue, r.query)[..3]
    ensures LoadMore(r).fetch == Some(FetchRequest(r.query, 3, false))
    ensures var t := Complete(LoadMore(r), catalogue, false);
            var results := MatchesIn(catalogue, r.query);
            && |t.products| >= 4
            && t.products[..3] == results[..3]
            && t.products[3] == results[6] != results[3]
            && !Consistent(t, catalogue, r.query)
  {
    ResultsDistinct(catalogue, r.query, 3, 6);
    LoadMoreSettles(r, catalogue, false);
    var t := Complete(LoadMore(r), catalogue, false);
    var d := SearchIn(catalogue, r.query, 3).data;
    assert t.products == r.products + d;
    ThirdPageStartsAtSeventh(catalogue, r.query);
    assert t.products[3] == d[0];
    assert t.products[..3] == r.products;
  }

  /** As written: from an idle state on page 2 (see `ReachPageTwo`), the
      debounced query becomes `query`, its search succeeds, and the user loads
      more. The new search keeps `page` at 2, so load-more asks for page 3
      and the list jumps from the third result to the seventh. */
  lemma PageNotResetSkipsResults(s: SearchState, catalogue: seq<Product>, query: string)
    requires ManyMatches(catalogue, query) && s.page == 2 && !s.isLoading && s.query == query
    ensures var r := Complete(QueryChanged(s, query), catalogue, false);
            && r.page == 2
            && LoadMore(r).fetch == Some(FetchRequest(query, 3, false))
            && var t := Complete(LoadMore(r), catalogue, false);
               var results := MatchesIn(catalogue, query);
               && |t.products| >= 4
               && t.products[..3] == results[..3]
               && t.products[3] == results[6] != results[3]
               && !Consistent(t, catalogue, query)
  {
    SearchSucceeds(s, catalogue, query);
    LoadMoreFromStalePage(Complete(QueryChanged(s, query), catalogue, false), catalogue);
  }

  /** From a consistent first page of a query with at least seven results,
      a successful load-more asks for page 2 and shows the first six. */
  lemma SecondPageConsistent(r: SearchState, catalogue: seq<Product>)
    requires Consistent(r, catalogue, r.query) && r.page == 1 && |MatchesIn(catalogue, r.query)| >= 7
    ensures LoadMore(r).fetch == Some(FetchRequest(r.query, 2, false))
    ensures var t := CompleteFixed(LoadMore(r), catalogue, false);
            t.products == MatchesIn(catalogue, r.query)[..6] && Consistent(t, catalogue, r.query)
  {
    LoadMoreConsistent(r, catalogue, false);
    var t := CompleteFixed(LoadMore(r), catalogue, false);
    assert t.page == 2;
    assert t.products == MatchesIn(catalogue, r.query)[..Min(2 * PageSize, |MatchesIn(catalogue, r.query)|)];
  }

  /** Corrected: from any state, a new search resets the page, and the
      load-more after it asks for page 2 and shows the first six results. */
  lemma PageResetKeepsResults(s: SearchState, catalogue: seq<Product>, query: string)
    requires ManyMatches(catalogue, query) && s.query == query
    ensures var r := CompleteFixed(QueryChangedFixed(s, query), catalogue, false);
            && r.page == 1
            && LoadMore(r).fetch == Some(FetchRequest(query, 2, false))
            && CompleteFixed(LoadMore(r), catalogue, false).products == MatchesIn(catalogue, query)[..6]
            && Consistent(CompleteFixed(LoadMore(r), catalogue, false), catalogue, query)
  {
    FreshQueryConsistent(s, catalogue, query);
    var r := CompleteFixed(QueryChangedFixed(s, query), catalogue, false);
    SecondPageConsistent(r, catalogue);
  }

  /** As written: after a search shows page 1, a load-more whose fetch fails
      still leaves `page` at 2, so the retry asks for page 3 and the list
      jumps from the third result to the seventh. */
  lemma FailedLoadMoreSkipsPage(s: SearchState, catalogue: seq<Product>)
    requires ManyMatches(catalogue, s.query) && Consistent(s, catalogue, s.query) && s.page == 1
    ensures var r := Complete(LoadMore(s), catalogue, true);
            && r.page == 2 && r.products == s.products && r.error == Some(FailureMessage)
            && LoadMore(r).fetch == Some(FetchRequest(s.query, 3, false))
            && var t := Complete(LoadMore(r), catalogue, false);
               var results := MatchesIn(catalogue, s.query);
               && |t.products| >= 4
               && t.products[..3] == results[..3]
               && t.products[3] == results[6] != results[3]
               && !Consistent(t, catalogue, s.query)
  {
    LoadMoreSettles(s, catalogue, true);
    LoadMoreFromStalePage(Complete(LoadMore(s), catalogue, true), catalogue);
  }

  /** Corrected: with the failed page given back, the retry asks for page 2
      again and the list shows the first six results. */
  lemma FailedLoadMoreRetried(s: SearchState, catalogue: seq<Product>)
    requires ManyMatches(catalogue, s.query) && Consistent(s, catalogue, s.query) && s.page == 1
    ensures var r := CompleteFixed(LoadMore(s), catalogue, true);
            && r.page == 1 && r.error == Some(FailureMessage)
            && LoadMore(r).fetch == Some(FetchRequest(s.query, 2, false))
            && CompleteFixed(LoadMore(r), catalogue, false).products == MatchesIn(catalogue, s.query)[..6]
            && Consistent(CompleteFixed(LoadMore(r), catalogue, false), catalogue, s.query)
  {
    LoadMoreConsistent(s, catalogue, true);
    SecondPageConsistent(CompleteFixed(LoadMore(s), catalogue, true), catalogue);
  }

  /** A search's first page is such a page-1 state. */
  lemma ReachFirstPage(catalogue: seq<Product>, query: string)
    requires ManyMatches(catalogue, query)
    ensures var s := Complete(QueryChanged(SetQuery(Initial, query), query), catalogue, false);
            Consistent(s, catalogue, query) && s.page == 1 && s.query == query
  {
    SearchSucceeds(SetQuery(Initial, query), catalogue, query);
  }

  // ---------------------------------------------------------------------
  // The query "a" in the mock catalogue
  // ---------------------------------------------------------------------

  /** The first two names have no "a" in either case. */
  lemma NoA(i: int)
    requires 0 <= i < 2
    ensures !NameMatches(MockProducts[i], "a")
  {
    var name := MockProducts[i].name;
    assert 'a' !in name && 'A' !in name;
    LowerMissing(name, 'a');
    assert Lower("a") == "a";
    MissingCharNoMatch(MockProducts[i], "a", 0);
  }

  /** Each of the last seven names has an "a" or an "A", at the index given. */
  lemma HasA(i: int)
    requires 2 <= i < 9
    ensures NameMatches(MockProducts[i], "a")
  {
    var at := [15, 0, 1, 1, 2, 0, 2];
    var name, k := MockProducts[i].name, at[i - 2];
    assert k < |name| && LowerChar(name[k]) == 'a';
    assert Lower(name)[k..k + 1] == "a";
    assert Lower("a") == "a";
    assert OccursAt(Lower(name), Lower("a"), k);
  }

  /** "a" matches exactly the catalogue entries from the third on. */
  lemma MatchesOfA()
    ensures Matches("a") == MockProducts[2..]
  {
    var head, tail := MockProducts[..2], MockProducts[2..];
    assert MockProducts == head + tail;
    MatchesInConcat(head, tail, "a");
    forall i | 0 <= i < |head| ensures !NameMatches(head[i], "a") {
      NoA(i);
    }
    NoneMatch(head, "a");
    forall i | 0 <= i < |tail| ensures NameMatches(tail[i], "a") {
      HasA(i + 2);
    }
    FilterKeepsAll(tail, p => NameMatches(p, "a"));
  }

  /** The catalogue's ids are its positions counted from 1. */
  lemma IdsArePositions(k: int)
    requires 0 <= k < |MockProducts|
    ensures MockProducts[k].id == k + 1
  {
  }

  /** "a" is not blank. */
  lemma ANotBlank()
    ensures !IsBlank("a")
  {
    assert TrimStart("a") == "a" && TrimEnd("a") == "a";
  }

  /** The results of "a" are ids 3 to 9. */
  lemma QueryAResultIds()
    ensures |Matches("a")| == 7
    ensures forall j :: 0 <= j < 7 ==> Matches("a")[j].id == j + 3
  {
    MatchesOfA();
    forall j | 0 <= j < 7 ensures Matches("a")[j].id == j + 3 {
      IdsArePositions(j + 2);
    }
  }

  /** "a" is a query with seven results, in a catalogue listed by
      increasing id. */
  lemma QueryAHasSevenMatches()
    ensures ManyMatches(MockProducts, "a")
  {
    ANotBlank();
    QueryAResultIds();
    CatalogueSortedById();
  }

  /** A list that starts with the first three of `results` and goes on
      with the seventh, when those are ids 3 to 9, shows ids 3, 4 and 5,
      then 9. */
  lemma SkippedListIds(t: seq<Product>, results: seq<Product>)
    requires |results| == 7 && forall j :: 0 <= j < 7 ==> results[j].id == j + 3
    requires |t| >= 4 && t[..3] == results[..3] && t[3] == results[6]
    ensures t[0].id == 3 && t[1].id == 4 && t[2].id == 5 && t[3].id == 9
  {
    assert t[0] == results[0] && t[1] == results[1] && t[2] == results[2];
  }

  /** The first finding for the query "a": after the stale page 2, the list
      shows ids 3, 4 and 5, then 9. */
  lemma QueryASkipsFourToEight(s: SearchState)
    requires s.page == 2 && !s.isLoading && s.query == "a"
    ensures var r := Complete(QueryChanged(s, "a"), MockProducts, false);
            var t := Complete(LoadMore(r), MockProducts, false);
            && |t.products| >= 4
            && t.products[0].id == 3 && t.products[1].id == 4 && t.products[2].id == 5
            && t.products[3].id == 9
  {
    QueryAHasSevenMatches();
    QueryAResultIds();
    PageNotResetSkipsResults(s, MockProducts, "a");
    var r := Complete(QueryChanged(s, "a"), MockProducts, false);
    SkippedListIds(Complete(LoadMore(r), MockProducts, false).products, Matches("a"));
  }

  /** The second finding for the query "a": search "a", a load-more that
      fails, then one that succeeds; the list shows ids 3, 4 and 5, then 9. */
  lemma QueryAFailedRetrySkips()
    ensures var s := Complete(QueryChanged(SetQuery(Initial, "a"), "a"), MockProducts, false);
            var r := Complete(LoadMore(s), MockProducts, true);
            var t := Complete(LoadMore(r), MockProducts, false);
            && r.error == Some(FailureMessage)
            && |t.products| >= 4
            && t.products[0].id == 3 && t.products[1].id == 4 && t.products[2].id == 5
            && t.products[3].id == 9
  {
    QueryAHasSevenMatches();
    QueryAResultIds();
    ReachFirstPage(MockProducts, "a");
    var s := Complete(QueryChanged(SetQuery(Initial, "a"), "a"), MockProducts, false);
    FailedLoadMoreSkipsPage(s, MockProducts);
    var r := Complete(LoadMore(s), MockProducts, true);
    SkippedListIds(Complete(LoadMore(r), MockProducts, false).products, Matches("a"));
  }
}

=== FILE: search.dfy ===
/** The state of the product-search component (its seven state cells taken
    together) and its callbacks, each as one atomic transition: begin a
    fetch, settle a fetch, load more, scroll, and react to a new debounced
    query. The outcome of the search API call is an explicit parameter. */
module Search {
  import opened Options
  import opened Text
  import opened Seqs
  import opened Catalogue

  /** `query`, `products`, `page`, `hasMore`, `isLoading`, `error`, `total`. */
  datatype SearchState = SearchState(
    query: string,
    products: seq<Product>,
    page: int,
    hasMore: bool,
    isLoading: bool,
    error: Option<string>,
    total: int)

  /** The state on mount. */
  const Initial: SearchState := SearchState("", [], 1, false, false, None, 0)

  /** The arguments of one `fetchProducts(searchQuery, pageNum, reset)` call. */
  datatype FetchRequest = FetchRequest(query: string, page: int, reset: bool)

  /** How the awaited search call ended: resolved with a result, or rejected
      with an error message. */
  datatype FetchOutcome = Ok(result: SearchResult) | Err(message: string)

  /** A transition's new state, and the fetch it started, if any. */
  datatype Step = Step(state: SearchState, fetch: Option<FetchRequest>)

  /** The message of the mock API's simulated failure. */
  const FailureMessage: string := "搜尋失敗，請再試一次"

  /** The outcome of the search call for `req` over `catalogue`; `failed`
      stands for the mock API's random failure. The component's catalogue is
      `MockProducts`; the lemmas below hold for any catalogue. */
  function Outcome(catalogue: seq<Product>, req: FetchRequest, failed: bool): (o: FetchOutcome)
    ensures o.Err? <==> failed
    ensures o.Err? ==> o.message == FailureMessage
    ensures o.Ok? ==> o.result.total == |MatchesIn(catalogue, req.query)| && |o.result.data| <= PageSize
    ensures !failed ==> o == Ok(SearchIn(catalogue, req.query, req.page))
  {
    if failed then Err(FailureMessage) else Ok(SearchIn(catalogue, req.query, req.page))
  }

  /** The input's `onChange`: the raw query follows every keystroke. */
  function SetQuery(s: SearchState, v: string): (r: SearchState)
    ensures r.query == v
    ensures r == s.(query := r.query)
  {
    s.(query := v)
  }

  /** The synchronous part of `fetchProducts`, before the `await`: a reset
      fetch clears the list, every fetch raises the loading flag and clears
      the error. */
  function BeginFetch(s: SearchState, req: FetchRequest): (r: SearchState)
    ensures r.isLoading && r.error == None
    ensures r.products == (if req.reset then [] else s.products)
    ensures r == s.(products := r.products, isLoading := true, error := None)
  {
    s.(products := if req.reset then [] else s.products, isLoading := true, error := None)
  }

  /** The part of `fetchProducts` after the `await`: on success the page
      replaces or extends the list and `hasMore` and `total` follow the
      result; on failure only the error is recorded; either way loading ends. */
  function SettleFetch(s: SearchState, req: FetchRequest, outcome: FetchOutcome): (r: SearchState)
    ensures !r.isLoading
    ensures r.query == s.query && r.page == s.page
    ensures outcome.Ok? ==>
      && r.products == (if req.reset then outcome.result.data else s.products + outcome.result.data)
      && r.hasMore == outcome.result.hasMore
      && r.total == outcome.result.total
      && r.error == s.error
    ensures outcome.Err? ==>
      r == s.(isLoading := false, error := Some(outcome.message))
  {
    match outcome
    case Ok(result) =>
      s.(products := if req.reset then result.data else s.products + result.data,
         hasMore := result.hasMore,
         total := result.total,
         isLoading := false)
    case Err(message) =>
      s.(error := Some(message), isLoading := false)
  }

  /** `handleLoadMore`: unless a fetch is running or there is nothing more,
      advance the page and start an append fetch of that page for the raw
      (not the debounced) query. */
  function LoadMore(s: SearchState): (r: Step)
    ensures r.fetch.None? <==> s.isLoading || !s.hasMore
    ensures r.fetch.None? ==> r.state == s
    ensures r.fetch.Some? ==>
      && r.fetch.value == FetchRequest(s.query, s.page + 1, false)
      && r.state.page == s.page + 1
      && r.state.products == s.products
      && r.state.isLoading && r.state.error == None
      && r.state.hasMore == s.hasMore && r.state.total == s.total && r.state.query == s.query
  {
    if !s.isLoading && s.hasMore then
      var next := s.page + 1;
      var req := FetchRequest(s.query, next, false);
      Step(BeginFetch(s.(page := next), req), Some(req))
    else
      Step(s, None)
  }

  /** `handleScroll`, with the page geometry reduced to `nearBottom`. */
  function Scroll(s: SearchState, nearBottom: bool): (r: Step)
    ensures r == (if nearBottom then LoadMore(s) else Step(s, None))
  {
    if nearBottom && s.hasMore && !s.isLoading then LoadMore(s) else Step(s, None)
  }

  /** The effect run when the debounced query changes: a blank query clears
      the list, `hasMore` and `total` without fetching; any other query starts
      a reset fetch of page 1. The `page` cell is never set back to 1. */
  function QueryChanged(s: SearchState, debounced: string): (r: Step)
    ensures r.fetch.None? <==> IsBlank(debounced)
    ensures IsBlank(debounced) ==>
      r.state == s.(products := [], hasMore := false, total := 0)
    ensures !IsBlank(debounced) ==>
      && r.fetch == Some(FetchRequest(debounced, 1, true))
      && r.state.products == [] && r.state.isLoading && r.state.error == None
      && r.state.page == s.page
      && r.state.hasMore == s.hasMore && r.state.total == s.total && r.state.query == s.query
  {
    if IsBlank(debounced) then
      Step(s.(products := [], hasMore := false, total := 0), None)
    else
      var req := FetchRequest(debounced, 1, true);
      Step(BeginFetch(s, req), Some(req))
  }

  /** A fetch begun and then settled always ends with loading over; a failure
      keeps the list, `hasMore` and `total` as the begin step left them; a
      reset success shows exactly the page; an append success keeps the old
      list as a prefix and adds the page after it. */
  lemma FetchRoundTrip(s: SearchState, req: FetchRequest, outcome: FetchOutcome)
    ensures var b := BeginFetch(s, req);
            var r := SettleFetch(b, req, outcome);
            && b.isLoading && !r.isLoading
            && (req.reset ==> b.products == [])
            && (outcome.Err? ==>
                  r.products == b.products && r.hasMore == s.hasMore && r.total == s.total
                  && r.error == Some(outcome.message))
            && (outcome.Ok? && req.reset ==> r.products == outcome.result.data)
            && (outcome.Ok? && !req.reset ==>
                  && |r.products| == |s.products| + |outcome.result.data|
                  && r.products[..|s.products|] == s.products
                  && r.products[|s.products|..] == outcome.result.data)
            && (outcome.Ok? ==> r.error == None)
  {
  }

  /** The page number only ever grows by the one step of a load-more; no
      transition takes it below 1. */
  lemma PageStaysPositive(s: SearchState, req: FetchRequest, outcome: FetchOutcome,
                          v: string, debounced: string, nearBottom: bool)
    requires s.page >= 1
    ensures SetQuery(s, v).page == s.page
    ensures BeginFetch(s, req).page == s.page
    ensures SettleFetch(s, req, outcome).page == s.page
    ensures LoadMore(s).state.page >= s.page
    ensures Scroll(s, nearBottom).state.page >= s.page
    ensures QueryChanged(s, debounced).state.page == s.page
  {
  }

  // ---------------------------------------------------------------------
  // View flags
  // ---------------------------------------------------------------------

  /** JavaScript truthiness of the `error` cell: `null` and `""` are falsy. */
  predicate ErrorShown(error: Option<string>)
  {
    error.Some? && error.value != ""
  }

  /** Which parts of the page the render shows. */
  datatype View = View(
    resultCount: bool,
    loading: bool,
    list: bool,
    noResults: bool,
    errorBanner: bool,
    loadMoreButton: bool,
    loadingMore: bool)

  /** The conditions of the render: result count, top loading indicator,
      product list, no-results message, error banner, load-more button and
      bottom loading indicator. */
  function Render(s: SearchState): (v: View)
    ensures s.page >= 1 ==> (s.isLoading <==> v.loading || v.loadingMore)
    ensures !(v.loading && v.loadingMore)
    ensures v.loadMoreButton ==> !v.loading && !v.loadingMore && !s.isLoading
    ensures v.noResults ==> !v.list && !v.errorBanner && !v.loading && !v.loadingMore
    ensures v.list <==> |s.products| > 0
    ensures v.errorBanner <==> ErrorShown(s.error)
    ensures v.resultCount ==> !IsBlank(s.query) && s.total > 0
    ensures v.loading <==> s.isLoading && s.page == 1
    ensures v.loadingMore <==> s.isLoading && s.page > 1
    ensures v.noResults <==> !IsBlank(s.query) && !s.isLoading && |s.products| == 0 && !ErrorShown(s.error)
    ensures v.loadMoreButton <==> s.hasMore && !s.isLoading
    ensures v.resultCount <==> !IsBlank(s.query) && s.total > 0
  {
    var blank := IsBlank(s.query);
    View(
      resultCount := !blank && s.total > 0,
      loading := s.isLoading && s.page == 1,
      list := |s.products| > 0,
      noResults := !blank && !s.isLoading && |s.products| == 0 && !ErrorShown(s.error),
      errorBanner := ErrorShown(s.error),
      loadMoreButton := s.hasMore && !s.isLoading,
      loadingMore := s.isLoading && s.page > 1)
  }

  // ---------------------------------------------------------------------
  // Corrected transitions and the consistency they keep
  // ---------------------------------------------------------------------

  /** The list shows exactly the first `page` pages of `query`'s results
      over `catalogue`, and `total` and `hasMore` agree with them: the state
      an append-mode client is meant to be in whenever no fetch is running. */
  predicate Consistent(s: SearchState, catalogue: seq<Product>, query: string)
  {
    var results := MatchesIn(catalogue, query);
    && s.page >= 1
    && !s.isLoading
    && s.total == |results|
    && s.hasMore == (s.page * PageSize < s.total)
    && s.products == results[..Min(s.page * PageSize, s.total)]
  }

  /** `QueryChanged` with the page reset to 1 that its reset fetch assumes. */
  function QueryChangedFixed(s: SearchState, debounced: string): (r: Step)
    ensures r.fetch.None? <==> IsBlank(debounced)
    ensures !IsBlank(debounced) ==> r.state.page == 1
    ensures IsBlank(debounced) ==> r == QueryChanged(s, debounced)
    ensures !IsBlank(debounced) ==> r.state == QueryChanged(s, debounced).state.(page := 1)
  {
    if IsBlank(debounced) then
      QueryChanged(s, debounced)
    else
      var req := FetchRequest(debounced, 1, true);
      Step(BeginFetch(s.(page := 1), req), Some(req))
  }

  /** `SettleFetch` that, when an append fetch fails, gives back the page the
      load-more had advanced to, so that the next load-more retries it. */
  function SettleFetchFixed(s: SearchState, req: FetchRequest, outcome: FetchOutcome): (r: SearchState)
    ensures outcome.Ok? || req.reset ==> r == SettleFetch(s, req, outcome)
    ensures outcome.Err? && !req.reset ==>
      r == SettleFetch(s, req, outcome).(page := req.page - 1)
  {
    var settled := SettleFetch(s, req, outcome);
    if outcome.Err? && !req.reset then settled.(page := req.page - 1) else settled
  }

  /** A transition followed by the settling of the fetch it started, if
      any, with the search call's outcome over `catalogue`. */
  function Complete(st: Step, catalogue: seq<Product>, failed: bool): (r: SearchState)
    ensures st.fetch.None? ==> r == st.state
    ensures st.fetch.Some? && !failed ==>
      var res := SearchIn(catalogue, st.fetch.value.query, st.fetch.value.page);
      r.hasMore == res.hasMore && r.total == res.total && r.error == st.state.error
    ensures st.fetch.Some? && failed ==>
      r.hasMore == st.state.hasMore && r.total == st.state.total
    ensures st.fetch.Some? ==>
      && !r.isLoading && r.query == st.state.query && r.page == st.state.page
      && (failed ==> r.products == st.state.products && r.error == Some(FailureMessage))
      && (!failed ==>
            var data := SearchIn(catalogue, st.fetch.value.query, st.fetch.value.page).data;
            r.products == (if st.fetch.value.reset then data else st.state.products + data))
  {
    match st.fetch
    case None => st.state
    case Some(req) => SettleFetch(st.state, req, Outcome(catalogue, req, failed))
  }

  /** `Complete` with the corrected settling step. */
  function CompleteFixed(st: Step, catalogue: seq<Product>, failed: bool): SearchState
  {
    match st.fetch
    case None => st.state
    case Some(req) => SettleFetchFixed(st.state, req, Outcome(catalogue, req, failed))
  }

  /** With the corrected transitions, a non-blank debounced query whose reset
      fetch succeeds leaves the state consistent: the list is page 1. */
  lemma FreshQueryConsistent(s: SearchState, catalogue: seq<Product>, debounced: string)
    requires !IsBlank(debounced)
    ensures QueryChangedFixed(s, debounced).fetch == Some(FetchRequest(debounced, 1, true))
    ensures var r := CompleteFixed(QueryChangedFixed(s, debounced), catalogue, false);
            Consistent(r, catalogue, debounced) && r.page == 1 && r.query == s.query
  {
    var r := CompleteFixed(QueryChangedFixed(s, debounced), catalogue, false);
    var results := MatchesIn(catalogue, debounced);
    assert r.products == results[Min(0, |results|)..Min(PageSize, |results|)];
  }

  /** With the corrected transitions, a load-more from a consistent state
      (raw query equal to the debounced one) keeps it consistent whether the
      fetch succeeds or fails: on success the list grows by exactly the next
      page, on failure nothing but the error changes. */
  lemma LoadMoreConsistent(s: SearchState, catalogue: seq<Product>, failed: bool)
    requires Consistent(s, catalogue, s.query) && s.hasMore
    ensures LoadMore(s).fetch == Some(FetchRequest(s.query, s.page + 1, false))
    ensures var r := CompleteFixed(LoadMore(s), catalogue, failed);
            && Consistent(r, catalogue, s.query) && r.query == s.query
            && r.page == (if failed then s.page else s.page + 1)
            && (failed ==> r.products == s.products && r.error == Some(FailureMessage))
  {
    if !failed {
      NextPageConsistent(s, catalogue);
    }
  }

  /** The success half of `LoadMoreConsistent`: the next page extends the
      list to the first `page + 1` pages. */
  lemma NextPageConsistent(s: SearchState, catalogue: seq<Product>)
    requires Consistent(s, catalogue, s.query) && s.hasMore
    ensures var r := CompleteFixed(LoadMore(s), catalogue, false);
            Consistent(r, catalogue, s.query) && r.page == s.page + 1
  {
    var result := SearchIn(catalogue, s.query, s.page + 1);
    NextPageExtends(catalogue, s.query, s.page);
    var r := CompleteFixed(LoadMore(s), catalogue, false);
    assert r == SettleFetch(LoadMore(s).state, FetchRequest(s.query, s.page + 1, false), Ok(result));
    assert r.products == s.products + result.data;
  }

  /** When page `n` is not the last, the first `n` pages followed by page
      `n + 1` are the first `n + 1` pages. */
  lemma NextPageExtends(catalogue: seq<Product>, query: string, n: int)
    requires n >= 1 && n * PageSize < |MatchesIn(catalogue, query)|
    ensures var results := MatchesIn(catalogue, query);
            results[..Min(n * PageSize, |results|)] + SearchIn(catalogue, query, n + 1).data
              == results[..Min((n + 1) * PageSize, |results|)]
  {
    var results := MatchesIn(catalogue, query);
    assert n * PageSize == 3 * n && (n + 1) * PageSize == 3 * n + 3 && (n + 1 - 1) * PageSize == 3 * n;
    var b := Min(3 * n + 3, |results|);
    assert SearchIn(catalogue, query, n + 1).data == results[3 * n..b];
    PrefixThenSlice(results, 3 * n, b);
  }

  /** Once the results are exhausted, load-more and scrolling do nothing. */
  lemma ExhaustedIsQuiet(s: SearchState, catalogue: seq<Product>, query: string, nearBottom: bool)
    requires Consistent(s, catalogue, query) && !s.hasMore
    ensures LoadMore(s) == Step(s, None)
    ensures Scroll(s, nearBottom) == Step(s, None)
    ensures s.products == MatchesIn(catalogue, query)
  {
  }
}

=== FILE: seqs.dfy ===
/** Generic helpers shared by the search and the toast components. */
module Options {

  /** A value that may be absent; models the source's `string | null` cells. */
  datatype Option<+T> = None | Some(value: T)
}

module Seqs {

  /** The elements of `s` that satisfy `p`, in their original order
      (the behaviour of JavaScript's `Array.prototype.filter`). */
  function Filter<T(!new)>(s: seq<T>, p: T -> bool): (r: seq<T>)
    ensures |r| <= |s|
    ensures forall x :: x in r <==> x in s && p(x)
    ensures forall i :: 0 <= i < |r| ==> p(r[i])
    decreases |s|
  {
    if |s| == 0 then []
    else if p(s[0]) then [s[0]] + Filter(s[1..], p)
    else Filter(s[1..], p)
  }

  /** Filtering commutes with concatenation, so the kept elements stay in the
      relative order they had in the input. */
  lemma {:induction false} FilterConcat<T(!new)>(a: seq<T>, b: seq<T>, p: T -> bool)
    ensures Filter(a + b, p) == Filter(a, p) + Filter(b, p)
    decreases |a|
  {
    if |a| == 0 {
      assert a + b == b;
    } else {
      assert (a + b)[1..] == a[1..] + b;
      FilterConcat(a[1..], b, p);
    }
  }

  /** A filter that keeps every element returns its input unchanged. */
  lemma {:induction false} FilterKeepsAll<T(!new)>(s: seq<T>, p: T -> bool)
    requires forall i :: 0 <= i < |s| ==> p(s[i])
    ensures Filter(s, p) == s
    decreases |s|
  {
    if |s| > 0 {
      FilterKeepsAll(s[1..], p);
    }
  }

  /** A filter that keeps nothing returns the empty sequence. */
  lemma {:induction false} FilterKeepsNone<T(!new)>(s: seq<T>, p: T -> bool)
    requires forall i :: 0 <= i < |s| ==> !p(s[i])
    ensures Filter(s, p) == []
    decreases |s|
  {
    if |s| > 0 {
      FilterKeepsNone(s[1..], p);
    }
  }

  /** Filtering twice by the same predicate is the same as filtering once. */
  lemma FilterTwice<T(!new)>(s: seq<T>, p: T -> bool)
    ensures Filter(Filter(s, p), p) == Filter(s, p)
  {
    FilterKeepsAll(Filter(s, p), p);
  }

  /** The first `a` elements followed by the elements from `a` to `b` are
      the first `b` elements. */
  lemma PrefixThenSlice<T>(s: seq<T>, a: int, b: int)
    requires 0 <= a <= b <= |s|
    ensures s[..a] + s[a..b] == s[..b]
  {
  }

  /** Keys strictly increase along the sequence. */
  predicate StrictlyIncreasing<T(!new)>(s: seq<T>, key: T -> int)
  {
    forall i, j :: 0 <= i < j < |s| ==> key(s[i]) < key(s[j])
  }

  /** Dropping the first element keeps the keys strictly increasing. */
  lemma IncreasingTail<T(!new)>(s: seq<T>, key: T -> int)
    requires |s| > 0 && StrictlyIncreasing(s, key)
    ensures StrictlyIncreasing(s[1..], key)
    ensures forall y :: y in s[1..] ==> key(s[0]) < key(y)
  {
    var rest := s[1..];
    forall i, j | 0 <= i < j < |rest| ensures key(rest[i]) < key(rest[j]) {
      assert rest[i] == s[i + 1] && rest[j] == s[j + 1];
    }
    forall y | y in rest ensures key(s[0]) < key(y) {
      var k :| 0 <= k < |rest| && rest[k] == y;
      assert rest[k] == s[k + 1];
    }
  }

  /** Putting an element whose key is below every key of an increasing
      sequence in front of it keeps it increasing. */
  lemma IncreasingCons<T(!new)>(x: T, t: seq<T>, key: T -> int)
    requires StrictlyIncreasing(t, key)
    requires forall y :: y in t ==> key(x) < key(y)
    ensures StrictlyIncreasing([x] + t, key)
  {
    var r := [x] + t;
    forall i, j | 0 <= i < j < |r| ensures key(r[i]) < key(r[j]) {
      assert r[j] == t[j - 1];
      if i > 0 {
        assert r[i] == t[i - 1];
      }
    }
  }

  /** Filtering a sequence whose keys strictly increase keeps them strictly
      increasing: the kept elements appear in input order. */
  lemma {:induction false} FilterKeepsOrder<T(!new)>(s: seq<T>, p: T -> bool, key: T -> int)
    requires StrictlyIncreasing(s, key)
    ensures StrictlyIncreasing(Filter(s, p), key)
    decreases |s|
  {
    if |s| > 0 {
      var rest := s[1..];
      IncreasingTail(s, key);
      FilterKeepsOrder(rest, p, key);
      if p(s[0]) {
        IncreasingCons(s[0], Filter(rest, p), key);
      }
    }
  }
}

=== FILE: text.dfy ===
/** The string operations the search component relies on: `toLowerCase`
    (restricted to ASCII), `includes` and `trim`. */
module Text {

  predicate IsUpper(c: char)
  {
    'A' <= c <= 'Z'
  }

  /** ASCII lower-casing of one character. */
  function LowerChar(c: char): char
  {
    if IsUpper(c) then (c as int + 32) as char else c
  }

  /** ASCII model of `String.prototype.toLowerCase`. */
  function Lower(s: string): (r: string)
    ensures |r| == |s|
    ensures forall i :: 0 <= i < |r| ==> !IsUpper(r[i])
    ensures forall i :: 0 <= i < |r| ==> r[i] == s[i] || r[i] as int == s[i] as int + 32
    ensures forall i :: 0 <= i < |s| && !IsUpper(s[i]) ==> r[i] == s[i]
    ensures forall i :: 0 <= i < |s| && IsUpper(s[i]) ==> r[i] as int == s[i] as int + 32
  {
    seq(|s|, i requires 0 <= i < |s| => LowerChar(s[i]))
  }

  /** Lower-casing twice is the same as lower-casing once. */
  lemma LowerIdempotent(s: string)
    ensures Lower(Lower(s)) == Lower(s)
  {
    var l := Lower(s);
    assert forall i :: 0 <= i < |l| ==> LowerChar(l[i]) == l[i];
  }

  /** A lower-case letter absent from `s` in both cases is absent from the
      lower-cased `s`. */
  lemma LowerMissing(s: string, c: char)
    requires 'a' <= c <= 'z' && c !in s && (c as int - 32) as char !in s
    ensures c !in Lower(s)
  {
    var upper := (c as int - 32) as char;
    forall k | 0 <= k < |s| ensures Lower(s)[k] != c {
      assert s[k] != c && s[k] != upper;
    }
  }

  /** `q` occurs in `s` starting at index `i`. */
  predicate OccursAt(s: string, q: string, i: int)
  {
    0 <= i && i + |q| <= |s| && s[i..i + |q|] == q
  }

  /** Model of `s.includes(q)`: is `q` a contiguous substring of `s`?
      The empty string is included in every string. */
  function Includes(s: string, q: string): (b: bool)
    ensures b <==> exists i :: OccursAt(s, q, i)
    decreases |s|
  {
    if |q| > |s| then false
    else if s[..|q|] == q then
      assert OccursAt(s, q, 0);
      true
    else
      var b := Includes(s[1..], q);
      assert b ==> exists i :: OccursAt(s, q, i) by {
        if b {
          var k :| OccursAt(s[1..], q, k);
          assert s[1..][k..k + |q|] == s[k + 1..k + 1 + |q|];
          assert OccursAt(s, q, k + 1);
        }
      }
      assert (exists i :: OccursAt(s, q, i)) ==> b by {
        if exists i :: OccursAt(s, q, i) {
          var k :| OccursAt(s, q, k);
          assert k != 0;
          assert s[1..][k - 1..k - 1 + |q|] == s[k..k + |q|];
          assert OccursAt(s[1..], q, k - 1);
        }
      }
      b
  }

  /** The characters removed by JavaScript's `String.prototype.trim`: the
      WhiteSpace and LineTerminator code points of ECMA-262. */
  predicate IsJsWhitespace(c: char)
  {
    || c == '\t' || c == '\n' || c == '\U{000B}' || c == '\U{000C}' || c == '\r'
    || c == ' ' || c == '\U{00A0}' || c == '\U{1680}'
    || ('\U{2000}' <= c <= '\U{200A}')
    || c == '\U{2028}' || c == '\U{2029}' || c == '\U{202F}' || c == '\U{205F}'
    || c == '\U{3000}' || c == '\U{FEFF}'
  }

  /** `String.prototype.trimStart`: a suffix of `s` that has no leading
      whitespace, and everything dropped was whitespace. */
  function TrimStart(s: string): (r: string)
    ensures |r| <= |s| && r == s[|s| - |r|..]
    ensures forall i :: 0 <= i < |s| - |r| ==> IsJsWhitespace(s[i])
    ensures |r| > 0 ==> !IsJsWhitespace(r[0])
    decreases |s|
  {
    if |s| > 0 && IsJsWhitespace(s[0]) then TrimStart(s[1..]) else s
  }

  /** `String.prototype.trimEnd`: a prefix of `s` that has no trailing
      whitespace, and everything dropped was whitespace. */
  function TrimEnd(s: string): (r: string)
    ensures |r| <= |s| && r == s[..|r|]
    ensures forall i :: |r| <= i < |s| ==> IsJsWhitespace(s[i])
    ensures |r| > 0 ==> !IsJsWhitespace(r[|r| - 1])
    decreases |s|
  {
    if |s| > 0 && IsJsWhitespace(s[|s| - 1]) then TrimEnd(s[..|s| - 1]) else s
  }

  /** `String.prototype.trim`. */
  function Trim(s: string): string
  {
    TrimEnd(TrimStart(s))
  }

  /** `trim` leaves the slice of `s` between a leading and a trailing run of
      whitespace: only whitespace is cut off on either side, and the result
      neither starts nor ends with whitespace. */
  lemma TrimShape(s: string)
    ensures var r := Trim(s);
            var a := |s| - |TrimStart(s)|;
            && (|r| > 0 ==> !IsJsWhitespace(r[0]) && !IsJsWhitespace(r[|r| - 1]))
            && 0 <= a && a + |r| <= |s| && r == s[a..a + |r|]
            && (forall i :: 0 <= i < a ==> IsJsWhitespace(s[i]))
            && (forall i :: a + |r| <= i < |s| ==> IsJsWhitespace(s[i]))
  {
    TrimInside(s, TrimStart(s), Trim(s));
  }

  /** A prefix `r` of a suffix `t` of `s`, with whitespace only cut off on
      either side, is the slice of `s` starting where `t` starts. */
  lemma TrimInside(s: string, t: string, r: string)
    requires |t| <= |s| && t == s[|s| - |t|..]
    requires forall i :: 0 <= i < |s| - |t| ==> IsJsWhitespace(s[i])
    requires |t| > 0 ==> !IsJsWhitespace(t[0])
    requires |r| <= |t| && r == t[..|r|]
    requires forall i :: |r| <= i < |t| ==> IsJsWhitespace(t[i])
    requires |r| > 0 ==> !IsJsWhitespace(r[|r| - 1])
    ensures var a := |s| - |t|;
            && (|r| > 0 ==> !IsJsWhitespace(r[0]) && !IsJsWhitespace(r[|r| - 1]))
            && 0 <= a && a + |r| <= |s| && r == s[a..a + |r|]
            && (forall i :: 0 <= i < a ==> IsJsWhitespace(s[i]))
            && (forall i :: a + |r| <= i < |s| ==> IsJsWhitespace(s[i]))
  {
    var a := |s| - |t|;
    forall i | a + |r| <= i < |s| ensures IsJsWhitespace(s[i]) {
      assert s[i] == t[i - a];
    }
    if |r| > 0 {
      assert r[0] == t[0];
    }
  }

  /** The source's test `s.trim() === ""`. */
  predicate IsBlank(s: string)
  {
    Trim(s) == ""
  }

  /** A string trims to the empty string exactly when every character of it is
      whitespace. */
  lemma BlankIffAllWhitespace(s: string)
    ensures IsBlank(s) <==> forall i :: 0 <= i < |s| ==> IsJsWhitespace(s[i])
  {
    var t := TrimStart(s);
    if !forall i :: 0 <= i < |s| ==> IsJsWhitespace(s[i]) {
      var k :| 0 <= k < |s| && !IsJsWhitespace(s[k]);
      assert |t| > 0;
      assert !IsJsWhitespace(t[0]);
      assert |TrimEnd(t)| > 0;
    }
  }
}

=== FILE: toast.dfy ===
/** The notification list of the toast demo. A notification is shown by
    appending it, hidden 3000 ms later by clearing its `visible` flag, and
    removed 300 ms after that. Each step names its notification by id only,
    so every entry that carries that id is affected. */
module Toast {
  import opened Seqs

  datatype ToastType = Success | Error

  datatype Notification = Notification(id: int, kind: ToastType, message: string, visible: bool)

  function MessageFor(kind: ToastType): string
  {
    match kind
    case Success => "Operation completed successfully!"
    case Error => "An error occurred!"
  }

  /** The ids present in the list. */
  function Ids(l: seq<Notification>): set<int>
  {
    set n | n in l :: n.id
  }

  /** Showing a notification: a new visible entry of the given kind, with the
      click's timestamp as its id, goes at the end of the list. */
  function Show(l: seq<Notification>, kind: ToastType, id: int): (r: seq<Notification>)
    ensures |r| == |l| + 1 && r[..|l|] == l
    ensures r[|l|].id == id && r[|l|].kind == kind && r[|l|].visible
    ensures r[|l|].message == MessageFor(kind)
    ensures Ids(r) == Ids(l) + {id}
  {
    var r := l + [Notification(id, kind, MessageFor(kind), true)];
    assert forall n :: n in r <==> n in l || n == r[|l|];
    r
  }

  /** Hiding by id: every entry with that id becomes invisible, every other
      entry stays as it is, and the order is kept. */
  function Hide(l: seq<Notification>, id: int): (r: seq<Notification>)
    ensures |r| == |l|
    ensures forall i :: 0 <= i < |l| && l[i].id != id ==> r[i] == l[i]
    ensures forall i :: 0 <= i < |l| && l[i].id == id ==> r[i] == l[i].(visible := false)
    decreases |l|
  {
    if |l| == 0 then []
    else
      var n := l[0];
      [if n.id == id then n.(visible := false) else n] + Hide(l[1..], id)
  }

  /** The test that keeps an entry when `id` is removed. */
  function Others(id: int): Notification -> bool
  {
    (n: Notification) => n.id != id
  }

  /** Removing by id: exactly the entries with other ids stay, in order. */
  function Remove(l: seq<Notification>, id: int): (r: seq<Notification>)
    ensures |r| <= |l|
    ensures forall n :: n in r <==> n in l && n.id != id
    ensures id !in Ids(r)
    ensures Ids(r) == Ids(l) - {id}
  {
    Filter(l, Others(id))
  }

  /** Hiding twice is hiding once; removing twice is removing once. */
  lemma HideRemoveIdempotent(l: seq<Notification>, id: int)
    ensures Hide(Hide(l, id), id) == Hide(l, id)
    ensures Remove(Remove(l, id), id) == Remove(l, id)
  {
    FilterTwice(l, Others(id));
  }

  /** Hiding or removing an id that is not in the list changes nothing. */
  lemma AbsentIdUntouched(l: seq<Notification>, id: int)
    requires id !in Ids(l)
    ensures Hide(l, id) == l
    ensures Remove(l, id) == l
  {
    assert forall i :: 0 <= i < |l| ==> l[i] in l && l[i].id != id;
    FilterKeepsAll(l, Others(id));
  }

  /** Removal does not care whether the entries were hidden first. */
  lemma {:induction false} RemoveAfterHide(l: seq<Notification>, id: int)
    ensures Remove(Hide(l, id), id) == Remove(l, id)
    decreases |l|
  {
    if |l| > 0 {
      var h := Hide(l, id);
      RemoveAfterHide(l[1..], id);
      assert l == [l[0]] + l[1..];
      assert h == [h[0]] + h[1..];
      assert h[1..] == Hide(l[1..], id);
      FilterConcat([l[0]], l[1..], Others(id));
      FilterConcat([h[0]], h[1..], Others(id));
    }
  }

  /** Hiding and removing act on the list entry by entry, so they commute
      with appending. */
  lemma HideRemoveAppend(a: seq<Notification>, b: seq<Notification>, id: int)
    ensures Hide(a + b, id) == Hide(a, id) + Hide(b, id)
    ensures Remove(a + b, id) == Remove(a, id) + Remove(b, id)
  {
    FilterConcat(a, b, Others(id));
  }

  /** Entries carrying `id`, appended to a list without it, are the only
      ones hiding touches and exactly the ones removal drops. */
  lemma AppendedIdOnly(l: seq<Notification>, tail: seq<Notification>, id: int)
    requires id !in Ids(l)
    requires forall i :: 0 <= i < |tail| ==> tail[i].id == id
    ensures Hide(l + tail, id) == l + Hide(tail, id)
    ensures Remove(l + tail, id) == l
    ensures Remove(Hide(l + tail, id), id) == l
  {
    HideRemoveAppend(l, tail, id);
    AbsentIdUntouched(l, id);
    FilterKeepsNone(tail, Others(id));
    assert Remove(l + tail, id) == l + [];
    RemoveAfterHide(l + tail, id);
  }

  /** The whole life of a notification whose id is new: once shown it is the
      last entry and visible; once hidden it is still there but invisible and
      the rest of the list is as before; once removed the list is what it was
      before the click. */
  lemma Lifecycle(l: seq<Notification>, kind: ToastType, id: int)
    requires id !in Ids(l)
    ensures var shown := Show(l, kind, id);
            var hidden := Hide(shown, id);
            && hidden == l + [Notification(id, kind, MessageFor(kind), false)]
            && Remove(hidden, id) == l
  {
    var n := Notification(id, kind, MessageFor(kind), true);
    assert Show(l, kind, id) == l + [n];
    AppendedIdOnly(l, [n], id);
    assert Hide([n], id) == [n.(visible := false)];
  }

  /** Two clicks in the same millisecond get the same id: the first one's
      hide hides both, and its removal removes both. */
  lemma SameMillisecondToastsVanishTogether(l: seq<Notification>, k1: ToastType, k2: ToastType, id: int)
    requires id !in Ids(l)
    ensures var both := Show(Show(l, k1, id), k2, id);
            var hidden := Hide(both, id);
            && |both| == |l| + 2
            && !hidden[|l|].visible && !hidden[|l| + 1].visible
            && Remove(hidden, id) == l
  {
    var n1 := Notification(id, k1, MessageFor(k1), true);
    var n2 := Notification(id, k2, MessageFor(k2), true);
    var one := Show(l, k1, id);
    assert one == l + [n1];
    var both := Show(one, k2, id);
    assert both == one + [n2];
    assert both == l + [n1, n2];
    AppendedIdOnly(l, [n1, n2], id);
    var hidden := Hide(both, id);
    assert hidden == l + Hide([n1, n2], id);
    assert hidden[|l|] == Hide([n1, n2], id)[0] && hidden[|l| + 1] == Hide([n1, n2], id)[1];
  }
}
